=== FILE: README.md ===
# BAC and Secure Messaging for an eMRTD reader, in Dafny

This project models the protocol engine of `NfcService_iOS`, the iOS NFC service that reads an
electronic identity document. The engine does the following:

- It parses the TD1 machine-readable zone (MRZ) and derives the Basic Access Control (BAC) keys
  from its 24-character `mrzInfo`.
- It selects the LDS application and runs BAC: GET CHALLENGE, then EXTERNAL AUTHENTICATE, which
  tries eight framings and checks the card's answer.
- It derives the Secure Messaging (SM) session keys and the send sequence counter (SSC).
- It reads EF.COM with protected SELECT and READ BINARY commands. When the protected SELECT fails
  it falls back to a plain SELECT and plain READ BINARY.

This is the protocol of ICAO Doc 9303 Part 11 (section 4.3, Basic Access Control; section 9.8,
Secure Messaging), carried in ISO/IEC 7816-4 APDUs. It uses ISO/IEC 9797-1 padding method 2 and
MAC algorithm 3 (the "retail MAC").

## Modules

- `Wrappers` (wrappers.dfy) holds `Option` and `Outcome`. An `Outcome` is one of three things:
  - `Pass(v)`, success with a value;
  - `Reject`, a `false` or `null` return in the source;
  - `Abort`, a .NET exception, which ends the session in `DidDetectTags`'s `catch`.
- `Octets` (octets.dfy) holds the `byte` type, big-endian values, the source's `Concat`, and XOR
  on bytes.
- `Crypto` (crypto.dfy) holds DES parity, padding, CBC, 3DES-EDE, the retail MAC and the KDF.
  SHA-1 and single-block DES are uninterpreted: they are function values in a `Primitives`
  record. Everything built on them is defined and proved.
- `Tlv` (tlv.dfy) holds `Tl` and `TryTlvFind`, with the round trip between them.
- `Mrz` (mrz.dfy) holds `TryParseTD1FromLines`, the `mrzInfo` string and
  `DeriveBacKeysFromMrzInfo`.
- `Apdu` (apdu.dfy) holds `CreateApdu` with `normLe`, and `Transport`, a class for the card
  connection. Its `card` function answers from the whole log of commands sent so far. Its
  `sent` field is that log, and `SendApdu` appends to it. A transport error reads as status
  0x6F00 with no data.
- `Bac` (bac.dfy) holds the EXTERNAL AUTHENTICATE bodies, the eight variants in the order the
  source tries them, and the checks on the card's answer.
- `SecureMessaging` (secure_messaging.dfy) holds the SSC, session keys, DO87/DO97/DO8E, command
  protection and response checking. These are pure functions. `SmChannel` is the class holding
  `_ksEnc16`, `_ksMac16`, `_ssc8` (an array changed in place) and `_lastSmHeaderMac`.
- `Flow` (flow.dfy) is the protocol as pure functions over a `Link`. A `Link` holds the commands
  sent, the SSC and the cached header. `Flow` covers:
  - the GET CHALLENGE and EXTERNAL AUTHENTICATE retry loops;
  - one protected exchange;
  - the chunked read loop, parameterised by the reader it calls;
  - the SELECT fallbacks;
  - the whole session.

  `Flow` also holds the bound, prefix and counter lemmas.
- `Service` (service.dfy) holds the class `NfcService`. Its methods are the source's methods:
  they send through the `Transport`, change the BAC and SM state, and record delivered files in
  `fileRead`, the model of `OnFileRead`. Each method's `ensures` ties its new state and result to
  the matching `Flow` function.

### Where the model follows the code rather than the written protocol description

- `mrzInfo` has 24 characters: the document number, date of birth and expiry, each with its
  check digit. It is not a 13-character key.
- The SSC is the IV of 3DES-CBC, both when building DO87 and when opening it.
- The command MAC input is the SSC, then the unpadded 4-byte header, then the DOs present.
- The response MAC input includes the cached header of the last protected command. If no 4-byte
  header is cached, it uses `0C B0 00 00`.
- `TryTlvFind` reads a length byte of 0x80, or of 0x83 to 0xFF, as a literal one-byte length.
- EXTERNAL AUTHENTICATE:
  - It expects both randoms rotated left by one byte.
  - Its MAC input is `7C len 80 len` followed by EICC.
  - The MAC check is skipped when 0x86 is absent or shorter than 8 bytes.
- A read loop delivers the bytes gathered so far when a later chunk fails. It does not fail
  closed.
- `SmSelectByFidTry` returns the raw status word. A response that fails the SM check but carries
  an outer status of 9000 therefore counts as a successful SELECT.
- When the response body is not empty, the outer status word is ignored. Only DO99 decides.
- The SM seed is the first 16 bytes of SHA-1(RND.IFD ‖ RND.ICC ‖ K.IFD ‖ K.ICC).

## Model

| member | source | states |
|---|---|---|
| `Octets.Be32` | NfcService_iOS.fixed.v2.cs:96-99 | the four counter bytes have big-endian value equal to the counter |
| `Octets.ConcatAppend` | NfcService_iOS.fixed.v2.cs:923-935 | concatenating two part lists equals concatenating each list and joining the results |
| `Octets.IfPresent` | NfcService_iOS.fixed.v2.cs:655-657 | adding a part only when it is non-empty contributes exactly that part to the concatenation |
| `Octets.ConcatIfPresent` | NfcService_iOS.fixed.v2.cs:670-673 | leaving an empty part out of a list leaves its concatenation unchanged |
| `Octets.XorOne` | NfcService_iOS.fixed.v2.cs:492 | `b ^ 0x01` adds one to an even byte and subtracts one from an odd byte |
| `Tlv.Tl` | NfcService_iOS.fixed.v2.cs:549-557 | output is the tag, a length header of 1, 2 or 3 bytes chosen by the value size, then the value itself |
| `Tlv.NextElement` | NfcService_iOS.fixed.v2.cs:565-581 | a parsed element lies within the buffer, carries its first byte as tag, and its value is the slice just before its end |
| `Tlv.TlvFind` | NfcService_iOS.fixed.v2.cs:559-589 | a found value is at least two bytes shorter than the buffer |
| `Tlv.ReadElement` | NfcService_iOS.fixed.v2.cs:565-581 | the cursor step succeeds exactly when an element can be parsed there, and then returns that element's tag, value and end |
| `Tlv.TryTlvFind` | NfcService_iOS.fixed.v2.cs:559-589 | the cursor loop returns true exactly when the first-match scan finds the tag, and then returns that value; otherwise it returns an empty value |
| `Tlv.NextElementOfTl` | NfcService_iOS.fixed.v2.cs:549-581 | an encoded object, whatever follows it, is parsed back as the same tag and value |
| `Tlv.TlvFindOfTl` | NfcService_iOS.fixed.v2.cs:549-589 | searching `Tl(t, v)` followed by anything for `t` yields `v`, for every value up to 65535 bytes |
| `Tlv.TlvFindSkips` | NfcService_iOS.fixed.v2.cs:582-586 | an object with another tag is stepped over |
| `Tlv.TlvFindFirstMatch` | NfcService_iOS.fixed.v2.cs:582-586 | of two objects with the same tag, the first one is returned |
| `Tlv.TlvFindTruncated` | NfcService_iOS.fixed.v2.cs:566-578 | no tag is found in a cut-off encoded object: an overrunning length stops the scan |
| `Tlv.TlvFindIsSlice` | NfcService_iOS.fixed.v2.cs:578-581 | a found value is a contiguous slice of the buffer, so nothing is read past its end |
| `Mrz.TryParseTD1FromLines` | NfcService_iOS.fixed.v2.cs:66-87 | succeeds exactly when lines 1 and 2 are not blank, both trimmed lines have at least 15 characters (Unicode scalar values), and the characters at 14 of line 1 and at 6 and 14 of line 2 upper-case to digits; fails on a blank or a short line; on success the fields are the TD1 slices 5..14 and 14 of upper-cased, trimmed line 1 and 0..6, 6, 8..14 and 14 of line 2, so they have 9, 6 and 6 characters and `mrzInfo` has 24 |
| `Mrz.ParseTd1Lines` | NfcService_iOS.fixed.v2.cs:73-86 | lines laid out from the fields in TD1 positions, typed in any letter case and padded with any white space, parse back to exactly those fields |
| `Mrz.TrimPadded` | NfcService_iOS.fixed.v2.cs:73-74 | `Trim` removes exactly the white space around a string that neither starts nor ends with white space |
| `Mrz.MrzInfo` | NfcService_iOS.fixed.v2.cs:126 | the key seed text is the document number, its check digit, the birth date, its check digit, the expiry date and its check digit, each at its own position, 3 characters more than the three fields |
| `Mrz.CanonicalTrimUpper` | NfcService_iOS.fixed.v2.cs:73-74 | trimming and upper-casing leave an already canonical line unchanged |
| `Mrz.AsciiBytes` | NfcService_iOS.fixed.v2.cs:92 | one byte per character: an ASCII character is its own code, any other becomes 0x3F |
| `Mrz.AsciiBytesInjective` | NfcService_iOS.fixed.v2.cs:92 | distinct ASCII strings have distinct bytes, so the encoding loses nothing of an ASCII `mrzInfo` |
| `Mrz.BacKeysFromMrzInfo` | NfcService_iOS.fixed.v2.cs:89-112 | K_seed is the first 16 bytes of SHA-1 of the ASCII `mrzInfo`; K_enc and K_mac are `Kdf16` of it with counters 1 and 2, parity-fixed; all three have 16 bytes and every byte of K_enc and K_mac has odd parity |
| `Mrz.BacKeysAreCounterKdf` | NfcService_iOS.fixed.v2.cs:94-111 | K_enc and K_mac are SHA-1 of the seed followed by 00 00 00 01 and 00 00 00 02, first 16 bytes, parity-fixed |
| `Apdu.NormLe` | NfcService_iOS.fixed.v2.cs:372 | an absent Le becomes -1, Le 0 becomes 256, any other Le is kept, and a Le from 0 to 256 gives 1 to 256 |
| `Apdu.CreateApdu` | NfcService_iOS.fixed.v2.cs:370-380 | the command has the given header and data and the normalised Le |
| `Apdu.Received` | NfcService_iOS.fixed.v2.cs:386-400 | a transport error reads as no data with status 0x6F00; otherwise the data and the status `sw1 * 256 + sw2` |
| `Apdu.Transport.constructor` | NfcService_iOS.fixed.v2.cs:43 | a new connection has sent nothing |
| `Apdu.Transport.SendApdu` | NfcService_iOS.fixed.v2.cs:382-408 | the command is appended to the log, and the result is the card's answer to the log so far |
| `Bac.RotL1` | NfcService_iOS.fixed.v2.cs:326 | the bytes after the first, followed by the first |
| `Bac.RotL1Injective` | NfcService_iOS.fixed.v2.cs:334 | equal rotations mean equal randoms, so the rotation check pins RND.ICC and RND.IFD |
| `Bac.EaVariantsOrder` | NfcService_iOS.fixed.v2.cs:263-282 | the eight variants in order: RAW then TLV; within each, CLA 00 then 0C; within each, Le absent then 256 |
| `Bac.EaTlvBody` | NfcService_iOS.fixed.v2.cs:349-354 | the TLV body has 46 bytes |
| `Bac.EaTlvBodyIsTlv` | NfcService_iOS.fixed.v2.cs:347-354 | the body is `Tl(7C, Tl(80, E) + Tl(86, M))`, and a TLV search recovers E and M from it |
| `Bac.EaCommand` | NfcService_iOS.fixed.v2.cs:347-367 | EXTERNAL AUTHENTICATE (INS 82, P1 P2 00) with the variant's class byte and normalised Le; the RAW body is E_IFD then the MAC (40 bytes), the TLV body is the 7C object of both (46 bytes) |
| `Bac.ParseEaResponse` | NfcService_iOS.fixed.v2.cs:285-342 | an empty answer is refused, and an accepted one yields 16 bytes of K.ICC; `EaAcceptedOnlyIfAuthentic`, `EaFieldsChecked` and `EaRoundTrip` state what is checked |
| `Bac.EaMacInputOfAnswer` | NfcService_iOS.fixed.v2.cs:303-304 | for the standard 44-byte 7C with a 32-byte EICC, the MAC input is `7C 2C 80 20` then EICC |
| `Bac.EaAcceptedOnlyIfAuthentic` | NfcService_iOS.fixed.v2.cs:285-342 | an accepted answer has an EICC of at least 32 bytes (whole blocks) whose plaintext starts with both rotated randoms; K.ICC is its bytes 16 to 32; a present 0x86 of 8 or more bytes carries the right MAC |
| `Bac.EaFieldsChecked` | NfcService_iOS.fixed.v2.cs:294-338 | with a well-formed, authentic 7C, the answer is accepted exactly when both rotation checks pass |
| `Bac.EaAnswerChecked` | NfcService_iOS.fixed.v2.cs:314-338 | an answer built by a card with the same keys is accepted exactly when its plaintext carries both rotated randoms, and yields bytes 16 to 32 |
| `Bac.EaRoundTrip` | NfcService_iOS.fixed.v2.cs:285-342 | an answer built as `EaAnswer` (a 7C object over E_ICC of both rotated randoms and K.ICC, with its MAC) is accepted and yields K.ICC |
| `Bac.UnrotatedRandomsRefused` | NfcService_iOS.fixed.v2.cs:334-338 | a card that echoes the randoms without rotating them is refused |
| `Crypto.FixByte` | NfcService_iOS.fixed.v2.cs:490-493 | the result has odd parity, differs from the input at most in bit 0, and an odd-parity byte is kept |
| `Crypto.ParityFixed` | NfcService_iOS.fixed.v2.cs:485-496 | same length as the key; every byte has odd parity and keeps bits 7 to 1 |
| `Crypto.ParityFixedIdempotent` | NfcService_iOS.fixed.v2.cs:485-496 | fixing parity twice is the same as fixing it once |
| `Crypto.CountOnes` | NfcService_iOS.fixed.v2.cs:491 | the shift-and-add loop counts the set bits |
| `Crypto.FixDesParity` | NfcService_iOS.fixed.v2.cs:485-496 | the loop over the cloned key returns `ParityFixed(key)` |
| `Crypto.Iso9797M2Pad` | NfcService_iOS.fixed.v2.cs:474-483 | the input, then 0x80, then zeros, to the smallest length that is a multiple of the block and longer than the input |
| `Crypto.PadM2` | NfcService_iOS.fixed.v2.cs:603-611 | the SM copy of the padding is `Iso9797M2Pad` with block 8 |
| `Crypto.UnpadM2` | NfcService_iOS.fixed.v2.cs:804-812 | the backward scan drops the trailing zeros and then one 0x80 |
| `Crypto.UnpadAfterPad` | NfcService_iOS.fixed.v2.cs:804-812 | unpadding a padded input gives the input back, for every input (empty or block-aligned included) and block size |
| `Crypto.CbcRoundTrip` | NfcService_iOS.fixed.v2.cs:443-452 | CBC decryption undoes CBC encryption under the same IV when the block decryption inverts the encryption |
| `Crypto.CbcLastBlock` | NfcService_iOS.fixed.v2.cs:429-430 | the last CBC block is the ISO/IEC 9797-1 chaining value of the padded input |
| `Crypto.ExpandTo24` | NfcService_iOS.fixed.v2.cs:613-621 | a 24-byte key is kept; a 16-byte key K1 K2 becomes K1 K2 K1 |
| `Crypto.TripleDesCbcEncrypt` | NfcService_iOS.fixed.v2.cs:623-632 | the ciphertext has the length of the input; `TripleDesRoundTrip` relates it to decryption |
| `Crypto.TripleDesCbcDecrypt` | NfcService_iOS.fixed.v2.cs:634-643 | the plaintext has the length of the input |
| `Crypto.TripleDesRoundTrip` | NfcService_iOS.fixed.v2.cs:623-643 | 3DES-CBC decryption undoes encryption under the same key and IV |
| `Crypto.SplitK1K2` | NfcService_iOS.fixed.v2.cs:436-441 | K1 and K2 are the two key halves, each given odd parity in bit 0 |
| `Crypto.Kdf16` | NfcService_iOS.fixed.v2.cs:94-105 | the derived key has 16 bytes |
| `Crypto.RetailMacIsAlgorithm3` | NfcService_iOS.fixed.v2.cs:425-434 | the MAC is DES under K1 of DES-decryption under K2 of the CBC chaining value under K1 of the padded input |
| `SecureMessaging.Incremented` | NfcService_iOS.fixed.v2.cs:540-547 | the counter keeps its length and its last byte goes up by one modulo 256; `IncrementedValue` states the carry |
| `SecureMessaging.IncrementedValue` | NfcService_iOS.fixed.v2.cs:540-547 | the carry loop adds one modulo 256^n, so FF…FF wraps to 00…00 |
| `SecureMessaging.TwoIncrements` | NfcService_iOS.fixed.v2.cs:708-720 | protecting a command and checking its answer advance the counter by two |
| `SecureMessaging.IncrementedTimesValue` | NfcService_iOS.fixed.v2.cs:540-547 | `n` increments add `n` modulo 256^n |
| `SecureMessaging.SessionKey` | NfcService_iOS.fixed.v2.cs:524-530 | a session key has 16 bytes, each with odd parity |
| `SecureMessaging.SessionKeyIsKdf` | NfcService_iOS.fixed.v2.cs:504-530 | the inline derivation of KS_enc and KS_mac is the counter KDF `Kdf16` of the SM seed, parity-fixed |
| `SecureMessaging.SmClass` | NfcService_iOS.fixed.v2.cs:675 | `cla OR 0x0C`: bits 2 and 3 set, every other bit kept |
| `SecureMessaging.BuildDo87` | NfcService_iOS.fixed.v2.cs:591-601 | the DO87 is empty exactly when there is no data |
| `SecureMessaging.BuildDo87Opens` | NfcService_iOS.fixed.v2.cs:591-601 | the DO87's value is 01 then whole blocks, and decrypting them under KS_enc with the SSC as IV, then unpadding, gives back the data |
| `SecureMessaging.BuildDo97` | NfcService_iOS.fixed.v2.cs:645-650 | no object for a negative Le; otherwise a 3-byte DO97 whose value is Le for 1 to 255 and 00 for 0 or above 255 |
| `SecureMessaging.BuildDo8E` | NfcService_iOS.fixed.v2.cs:652-661 | DO8E holds the retail MAC over SSC, header and the DO87 and DO97 present, with absent ones contributing nothing |
| `SecureMessaging.ProtectCommand` | NfcService_iOS.fixed.v2.cs:663-687 | a protected command has class `cla OR 0x0C`, the same INS, P1 and P2, and no Le; `ProtectedCommandOpens` states its body |
| `SecureMessaging.ReadBinaryProtected` | NfcService_iOS.fixed.v2.cs:689-706 | a protected READ BINARY carries DO97 then a DO8E over the header and DO97, with no DO87 |
| `SecureMessaging.ProtectedCommandOpens` | NfcService_iOS.fixed.v2.cs:663-687 | a peer holding the keys and SSC finds in the body the encrypted data (present exactly when there is data), the DO97 of the Le, and a DO8E that is the MAC over SSC, header and those objects; the body is exactly [DO87] then [DO97] then DO8E, with nothing else |
| `SecureMessaging.ResponseHeader` | NfcService_iOS.fixed.v2.cs:766-768 | the MAC header is 4 bytes: the cached header when it has 4 bytes |
| `SecureMessaging.AcceptedOnlyIfAuthentic` | NfcService_iOS.fixed.v2.cs:722-802 | an accepted empty response had status 9000 and yields nothing; an accepted non-empty one has DO99 `90 00` and a DO8E equal to the MAC over SSC, cached header, DO87 and DO99; returned data comes from a DO87 starting with 01 |
| `SecureMessaging.UnprotectResponse` | NfcService_iOS.fixed.v2.cs:722-802 | an empty body passes with no data on status 9000 and is refused otherwise; a body without DO99 `90 00` is refused; `AcceptedOnlyIfAuthentic` and `ResponseRoundTrip` state the MAC check |
| `SecureMessaging.OpenDo87` | NfcService_iOS.fixed.v2.cs:788-799 | no DO87 gives no data, a DO87 not starting with 01 is refused, and the decryption throws exactly when the ciphertext after 01 is not whole blocks |
| `SecureMessaging.ResponseRoundTrip` | NfcService_iOS.fixed.v2.cs:722-802 | a response built by a card with the same keys, SSC and header is accepted with its data, whatever the outer status |
| `SecureMessaging.ForgedMacRejected` | NfcService_iOS.fixed.v2.cs:770-780 | whatever DO87 it carries, a response whose DO8E is not the right MAC is rejected |
| `SecureMessaging.StatusBytes` | NfcService_iOS.fixed.v2.cs:746-747 | two bytes that read 0x9000 are `90 00` |
| `SecureMessaging.CheckResponse` | NfcService_iOS.fixed.v2.cs:734-801 | the imperative checks of `ParseSmResponse` decide what the response-opening function decides |
| `SecureMessaging.ResponseMacInput` | NfcService_iOS.fixed.v2.cs:765-774 | the MAC input is SSC, header, the re-encoded DO87 when present, and DO99; the DO87 value is returned (empty when absent) |
| `SecureMessaging.DecryptDo87` | NfcService_iOS.fixed.v2.cs:788-799 | the DO87 tail decrypts and unpads as the response-opening function says |
| `SecureMessaging.SmChannel.InitSM` | NfcService_iOS.fixed.v2.cs:500-538 | KS_enc and KS_mac are the session keys with counters 1 and 2, and SSC is RND.ICC[4..8) then RND.IFD[4..8) |
| `SecureMessaging.SmChannel.SscIncrement` | NfcService_iOS.fixed.v2.cs:540-547 | the counter array becomes its big-endian value plus one modulo 2^64 |
| `SecureMessaging.SmChannel.MakeProtectedApdu` | NfcService_iOS.fixed.v2.cs:663-687 | increments the SSC once, caches exactly the protected header, and returns the protected command under the new SSC |
| `SecureMessaging.SmChannel.MakeProtectedReadBinary` | NfcService_iOS.fixed.v2.cs:689-706 | the same for READ BINARY, with Le 0 or below sent as 256 |
| `SecureMessaging.SmChannel.ParseSmResponse` | NfcService_iOS.fixed.v2.cs:722-802 | increments the SSC once and then decides as the response-opening function under the new SSC and the cached header |
| `Flow.Attempts` | NfcService_iOS.fixed.v2.cs:263-283 | the retry loop only appends, at most one command per candidate; an accepted reply is the reply to the last command sent; without one every candidate was sent |
| `Flow.AttemptsStopAtFirst` | NfcService_iOS.fixed.v2.cs:263-283 | the retry loop sends a prefix of the candidates; every attempt before the last was refused; it stops at the first accepted one or after all of them |
| `Flow.Challenge` | NfcService_iOS.fixed.v2.cs:242-255 | GET CHALLENGE with Le 8, then with Le 256 only if the first fails; a random is returned only from a 9000 answer of 8 or more bytes, and is its first 8 bytes |
| `Flow.EaCommands` | NfcService_iOS.fixed.v2.cs:263-282 | the eight EXTERNAL AUTHENTICATE commands in variant order |
| `Flow.Authenticate` | NfcService_iOS.fixed.v2.cs:257-345 | 1 to 8 commands are appended; K.ICC has 16 bytes and comes only after a 9000 answer |
| `Flow.AuthenticateAttempts` | NfcService_iOS.fixed.v2.cs:257-345 | 1 to 8 variants are sent in order; all before the last were refused; the answer is parsed only after a 9000; without one all eight were sent and BAC fails |
| `Flow.SmExchange` | NfcService_iOS.fixed.v2.cs:708-720 | one protected exchange appends one command, and the status word reported is the card's answer to it |
| `Flow.ExchangeAdvancesCounter` | NfcService_iOS.fixed.v2.cs:708-720 | one exchange sends the command protected under SSC+1, caches its header, and leaves the SSC advanced by two |
| `Flow.SmSelect` | NfcService_iOS.fixed.v2.cs:866-873 | a protected SELECT appends one command and reports a status word or an exception, never a refusal |
| `Flow.SmSelectStatus` | NfcService_iOS.fixed.v2.cs:866-873 | the SELECT reports 9000 exactly when the response is accepted or its raw status is 9000; otherwise it reports the raw status |
| `Flow.SmReadBinary` | NfcService_iOS.fixed.v2.cs:708-720 | a protected READ BINARY appends one command, never refuses, and returns bytes only with status 9000 |
| `Flow.OffsetAddress` | NfcService_iOS.fixed.v2.cs:849-850 | below 0x8000, P1 and P2 encode the offset, and P1 stays below 0x80 |
| `Flow.ReadFrom` | NfcService_iOS.fixed.v2.cs:845-858 | the read loop delivers bytes or ends in an exception, never a refusal; `ReadFromSends`, `ReadFromCounter` and `ReadFromKeeps` state what it sends and keeps |
| `Flow.ReadFromSends` | NfcService_iOS.fixed.v2.cs:845-858 | the loop only appends READ BINARY commands, at least one, and at most one per 256 bytes of the cap |
| `Flow.ReadFromCounter` | NfcService_iOS.fixed.v2.cs:845-858 | the SSC advances by the same number of steps for every command sent |
| `Flow.ReadFromKeeps` | NfcService_iOS.fixed.v2.cs:854 | the bytes delivered extend the bytes gathered before |
| `Flow.SmReaderReadsOnce` | NfcService_iOS.fixed.v2.cs:851 | a protected READ BINARY sends one command and advances the SSC by two |
| `Flow.SmReaderCommand` | NfcService_iOS.fixed.v2.cs:849-851 | the command sent is the protected READ BINARY at the offset's P1 and P2 with Le 256 |
| `Flow.PlainReaderReadsOnce` | NfcService_iOS.fixed.v2.cs:884-887 | a plain READ BINARY sends one command and leaves the SSC alone |
| `Flow.SmReadLoop` | NfcService_iOS.fixed.v2.cs:845-858 | the protected read loop sends 1 to 33 commands, and the SSC advances by two per command |
| `Flow.PlainReadLoop` | NfcService_iOS.fixed.v2.cs:880-898 | the plain read loop sends 1 to 65 commands and leaves the SSC alone |
| `Flow.SmSelectorSelectsOnce` | NfcService_iOS.fixed.v2.cs:866-873 | a protected SELECT sends one command and never rejects outright |
| `Flow.SessionExchangesOnce` | NfcService_iOS.fixed.v2.cs:815-863 | the session's SELECT and readers each send one command per step |
| `Flow.ReadSelected` | NfcService_iOS.fixed.v2.cs:829-862 | the read ends refused (rather than with an exception, which also delivers nothing) only when the SELECT attempts neither threw nor reported 9000 and the one plain SELECT appended after them was not answered with 9000 |
| `Flow.ReadLds` | NfcService_iOS.fixed.v2.cs:815-863 | reading EF.COM ends refused (rather than with an exception, which also delivers nothing) only after a plain SELECT of EF.COM that was not answered with 9000 |
| `Flow.ReadLdsBounded` | NfcService_iOS.fixed.v2.cs:815-863 | reading EF.COM sends 1 to 69 commands and only appends to what was sent |
| `Flow.Handshake` | NfcService_iOS.fixed.v2.cs:189-215 | SELECT AID is sent first and only appended to; on success RND.ICC has 8 bytes and K.ICC 16 |
| `Flow.Session` | NfcService_iOS.fixed.v2.cs:164-230 | a failed handshake ends the session with nothing more sent, and EF.COM is delivered only after a successful handshake |
| `Service.NfcService.constructor` | NfcService_iOS.fixed.v2.cs:123-133 | BAC keys are derived exactly when an `mrzInfo` is supplied; no SM channel, nothing delivered |
| `Service.NfcService.ApduSelectAid` | NfcService_iOS.fixed.v2.cs:233-240 | sends SELECT of the LDS AID and succeeds exactly on 9000 |
| `Service.NfcService.BacGetChallenge` | NfcService_iOS.fixed.v2.cs:242-255 | the loop sends and returns what `Challenge` says |
| `Service.NfcService.SendEaRaw` | NfcService_iOS.fixed.v2.cs:361-367 | sends the RAW variant and reports the answer, with `ok` exactly on 9000 |
| `Service.NfcService.SendEaTlv` | NfcService_iOS.fixed.v2.cs:347-359 | sends the TLV variant and reports the answer, with `ok` exactly on 9000 |
| `Service.NfcService.BacExternalAuthenticate` | NfcService_iOS.fixed.v2.cs:257-345 | sends and decides as `Authenticate`, and sets K.ICC exactly on success |
| `Service.NfcService.SmSelectByFidTry` | NfcService_iOS.fixed.v2.cs:866-873 | one protected SELECT of EF.COM changes the link and reports as `SmSelect` |
| `Service.NfcService.SendSmReadBinary` | NfcService_iOS.fixed.v2.cs:708-720 | one protected READ BINARY changes the link and reports as `SmReadBinary` |
| `Service.NfcService.PlainReadBinaryFallback` | NfcService_iOS.fixed.v2.cs:876-902 | the plain loop sends and delivers what the read-loop function gives with the 16384 cap, and records the bytes as a delivered file |
| `Service.NfcService.SelectEfCom` | NfcService_iOS.fixed.v2.cs:821-827 | the three protected SELECT attempts, each only after the previous one failed |
| `Service.NfcService.ReadLds` | NfcService_iOS.fixed.v2.cs:815-863 | sends, changes the SM state and delivers as the `ReadLds` function; a file is recorded exactly when one is delivered |
| `Service.NfcService.ReadSelected` | NfcService_iOS.fixed.v2.cs:829-862 | after the SELECT attempts, chooses the protected or the plain read as the function does |
| `Service.NfcService.ReadPlain` | NfcService_iOS.fixed.v2.cs:829-841 | plain SELECT, then the plain read only if it answers 9000 |
| `Service.NfcService.ReadChunkAt` | NfcService_iOS.fixed.v2.cs:849-851 | one protected chunk read at an offset, as the reader function says |
| `Service.NfcService.ReadChunks` | NfcService_iOS.fixed.v2.cs:844-858 | the protected read loop ends in the link and result of the read-loop function with the 8192 cap |
| `Service.NfcService.Handshake` | NfcService_iOS.fixed.v2.cs:189-215 | SELECT AID, GET CHALLENGE, EIFD and MIFD, EXTERNAL AUTHENTICATE as the handshake function; on success RND.ICC, RND.IFD, K.IFD and K.ICC are stored |
| `Service.NfcService.DidDetectTags` | NfcService_iOS.fixed.v2.cs:164-230 | without BAC keys nothing is sent; otherwise the whole session sends and delivers what `Session` says, and a file is recorded exactly when one is delivered |

## Left out

- The CoreNFC lifecycle is platform I/O and is not modelled: `StartSession`'s session opening,
  `StopSession`, `DidInvalidate`, tag resolution and `ConnectToAsync` in `DidDetectTags`. The
  `NfcService` constructor takes the `mrzInfo` that `StartSession` would have assembled.
- The callback and `TaskCompletionSource` plumbing of `SendApdu` is left out. The transport is the
  `card` function of the whole command log.
- SHA-1 and single-block DES are function values, not real ciphers. `RandomBytes` results are
  parameters of `DidDetectTags`.
- Logging, `Hex`, `MaskMrz`, `HexToBytes` and the debug prints only produce text. `OnFileRead`
  is the `fileRead` log.
- Null guards on fields (`_ssc8`, `_rndIcc`, `_iso`, missing keys) and argument exceptions on
  key lengths cannot be reached in the session. The types and preconditions rule them out.
- `Mrz.TryParseTD1FromLines` counts lengths and positions in Unicode scalar values, while .NET
  counts UTF-16 code units. A line holding a character outside the Basic Multilingual Plane is
  therefore measured and sliced differently: .NET sees it one unit longer from that character on.
- `char.IsDigit` is modelled on the ASCII digits and `ToUpperInvariant` on the ASCII letters, not
  the full Unicode tables. `Trim` uses the .NET white-space set.
- `Encoding.ASCII` replaces each non-ASCII character with `?`. The model does this per Unicode
  scalar value.
- The four `goto` loops of `BacExternalAuthenticateAsync` are one loop over the eight variants.
  The bodies of `ReadLdsAsync` and `DidDetectTags` are split into helper methods, so each
  method's proof stays small.
- `Crypto.CbcEncrypt`, `Crypto.CbcDecrypt`, `Crypto.DesCbcEncrypt`, `Crypto.TripleDesCbcEncrypt`
  and `Crypto.TripleDesCbcDecrypt` state only that length is preserved. The cipher is abstract.
  Their meaning is carried by `CbcRoundTrip`, `TripleDesRoundTrip` and `RetailMacIsAlgorithm3`.
- `Crypto.Kdf16` and `SecureMessaging.SessionSeed` state only their 16-byte length. Their value
  is a hash.
- `Flow.Handshake` states the lengths of RND.ICC and K.ICC and that SELECT AID comes first. The
  other steps are tied to the source by `Service.NfcService.Handshake` and the lemmas about
  `Challenge` and `Authenticate`.
- `Crypto.RetailMac` has no contract of its own. `RetailMacIsAlgorithm3` states what it computes.
- The .NET `Key` setters of `DES` and `TripleDES` (lines 419, 448, 459, 469, 628 and 639) throw
  `CryptographicException` for a weak or semi-weak key, and for a 3DES key whose halves are
  equal. The model has no exception there. The keys are hash outputs, so such keys are not
  expected.
- The `_lastSmHeaderMac` cache is reset to empty when a channel is created. The source keeps any
  earlier value across `InitSM`. This makes no difference, because every response check follows
  a protected command that sets the cache.

=== FILE: apdu.dfy ===
/**
 * ISO/IEC 7816-4 command APDUs as the service builds them, the replies a tag delivers, and the
 * transport that exchanges one for the other.
 */
module Apdu {
  import opened Wrappers
  import opened Octets

  /**
   * A command APDU: header, data field (empty when there is none) and the expected response
   * length, -1 meaning that no Le field is sent.
   */
  datatype Command = Command(cla: byte, ins: byte, p1: byte, p2: byte, data: Bytes, le: int)

  /** What the tag's completion handler delivers: response bytes with SW1 SW2, or an error. */
  datatype Reply = Reply(data: Bytes, sw1: byte, sw2: byte) | Failure

  /** The status word that stands for a transport error. */
  const TransportErrorSw := 0x6F00

  /** The status word 90 00, success. */
  const SwOk := 0x9000

  /**
   * `normLe`: an absent Le becomes -1 (no Le field), Le 0 becomes 256, any other value is kept.
   */
  function NormLe(le: Option<int>): (r: int)
    ensures le.None? ==> r == -1
    ensures le == Some(0) ==> r == 256
    ensures le.Some? && 0 <= le.value <= 256 ==> 1 <= r <= 256
    ensures le.Some? && le.value != 0 ==> r == le.value
  {
    if le.None? then -1 else if le.value == 0 then 256 else le.value
  }

  /** `CreateApdu`: a plain (unprotected) command with a normalised expected length. */
  function CreateApdu(cla: byte, ins: byte, p1: byte, p2: byte, data: Bytes, le: Option<int>): (r: Command)
    ensures r.cla == cla && r.ins == ins && r.p1 == p1 && r.p2 == p2 && r.data == data
    ensures r.le == NormLe(le)
  {
    Command(cla, ins, p1, p2, data, NormLe(le))
  }

  /**
   * The pair `SendApdu` hands back for a reply: the response bytes and SW1 * 256 + SW2, or no bytes
   * and 0x6F00 when the tag reported an error.
   */
  function Received(reply: Reply): (r: (Bytes, int))
    ensures 0 <= r.1 <= 0xFFFF
    ensures reply.Failure? ==> r == ([], TransportErrorSw)
    ensures reply.Reply? ==> r.0 == reply.data && r.1 / 256 == reply.sw1 as int && r.1 % 256 == reply.sw2 as int
  {
    match reply
    case Reply(data, sw1, sw2) => (data, sw1 as int * 256 + sw2 as int)
    case Failure => ([], TransportErrorSw)
  }

  /**
   * The ISO 7816 tag seen through the radio link. The card is deterministic given everything it has
   * been sent: `card` gives the reply to the last command of a history.
   */
  class Transport {
    const card: seq<Command> -> Reply
    /** Every command sent so far, in order. */
    var sent: seq<Command>

    constructor (card: seq<Command> -> Reply)
      ensures this.card == card && sent == []
    {
      this.card := card;
      sent := [];
    }

    /** `SendApdu`: one exchange with the tag. */
    method SendApdu(cmd: Command) returns (data: Bytes, sw: int)
      modifies this`sent
      ensures sent == old(sent) + [cmd]
      ensures (data, sw) == Received(card(sent))
    {
      sent := sent + [cmd];
      var reply := card(sent);
      match reply {
        case Reply(d, sw1, sw2) =>
          data, sw := d, sw1 as int * 256 + sw2 as int;
        case Failure =>
          data, sw := [], TransportErrorSw;
      }
    }
  }
}

=== FILE: bac.dfy ===
/**
 * Basic Access Control as the service runs it: the GET CHALLENGE and EXTERNAL AUTHENTICATE
 * commands, the eight framings EXTERNAL AUTHENTICATE is tried with, and the check of the card's
 * answer (TLV lookup, optional MAC, decryption, rotated-random comparison).
 */
module Bac {
  import opened Wrappers
  import opened Octets
  import opened Crypto
  import opened Tlv
  import opened Apdu

  /** `RotL1`: the bytes rotated left by one, the first byte moved to the end. */
  function RotL1(x: Bytes): (r: Bytes)
    ensures |r| == |x|
    ensures x != [] ==> r[|r| - 1] == x[0] && r[..|r| - 1] == x[1..]
  {
    if x == [] then [] else x[1..] + x[..1]
  }

  /** Rotation loses nothing: two values with the same rotation are equal. */
  lemma RotL1Injective(x: Bytes, y: Bytes)
    requires RotL1(x) == RotL1(y)
    ensures x == y
  {
    if x != [] {
      assert x == [x[0]] + x[1..] && y == [y[0]] + y[1..];
    }
  }

  /** GET CHALLENGE with expected length `le`. */
  function GetChallenge(le: int): Command
  {
    CreateApdu(0x00, 0x84, 0x00, 0x00, [], Some(le))
  }

  /** The two bodies EXTERNAL AUTHENTICATE is sent with. */
  datatype Framing = RawBody | TlvBody

  /** One EXTERNAL AUTHENTICATE attempt: body framing, class byte and optional Le. */
  datatype EaVariant = EaVariant(framing: Framing, cla: byte, le: Option<int>)

  /**
   * The attempts in the order they are made: RAW with CLA 00, RAW with CLA 0C, TLV with CLA 00,
   * TLV with CLA 0C, each first without Le and then with Le 256.
   */
  const EaVariants: seq<EaVariant> := [
    EaVariant(RawBody, 0x00, None), EaVariant(RawBody, 0x00, Some(256)),
    EaVariant(RawBody, 0x0C, None), EaVariant(RawBody, 0x0C, Some(256)),
    EaVariant(TlvBody, 0x00, None), EaVariant(TlvBody, 0x00, Some(256)),
    EaVariant(TlvBody, 0x0C, None), EaVariant(TlvBody, 0x0C, Some(256))]

  /** The order of `EaVariants`: position `i` has framing, class and Le given by its bits. */
  lemma EaVariantsOrder(i: nat)
    requires i < |EaVariants|
    ensures |EaVariants| == 8
    ensures EaVariants[i].framing == (if i < 4 then RawBody else TlvBody)
    ensures EaVariants[i].cla == (if i / 2 % 2 == 0 then 0x00 else 0x0C)
    ensures EaVariants[i].le == (if i % 2 == 0 then None else Some(256))
  {
  }

  /** `SendEA_RAW`'s body: E_IFD followed by M_IFD. */
  function EaRawBody(eifd: Bytes, mac8: Bytes): Bytes
  {
    eifd + mac8
  }

  /** `SendEA_TLV`'s 46-byte body: 7C 2C, then 80 20 E_IFD, then 86 08 M_IFD. */
  function EaTlvBody(eifd: Bytes, mac8: Bytes): (r: Bytes)
    requires |eifd| == 32 && |mac8| == 8
    ensures |r| == 46
  {
    [0x7C, 0x2C, 0x80, 0x20] + eifd + [0x86, 0x08] + mac8
  }

  /** The TLV body is the TLV codec's own nesting, so a card finds E_IFD and M_IFD in it. */
  lemma EaTlvBodyIsTlv(eifd: Bytes, mac8: Bytes)
    requires |eifd| == 32 && |mac8| == 8
    ensures EaTlvBody(eifd, mac8) == Tl(0x7C, Tl(0x80, eifd) + Tl(0x86, mac8))
    ensures TlvFind(EaTlvBody(eifd, mac8), 0x7C) == Some(Tl(0x80, eifd) + Tl(0x86, mac8))
    ensures TlvFind(Tl(0x80, eifd) + Tl(0x86, mac8), 0x80) == Some(eifd)
    ensures TlvFind(Tl(0x80, eifd) + Tl(0x86, mac8), 0x86) == Some(mac8)
  {
    var inner := Tl(0x80, eifd) + Tl(0x86, mac8);
    assert |inner| == 0x2C;
    assert EaTlvBody(eifd, mac8) == Tl(0x7C, inner);
    TlvFindOfTl(0x7C, inner, []);
    assert Tl(0x7C, inner) + [] == Tl(0x7C, inner);
    TlvFindOfTl(0x80, eifd, Tl(0x86, mac8));
    TlvFindSkips(0x80, eifd, Tl(0x86, mac8), 0x86);
    TlvFindOfTl(0x86, mac8, []);
    assert Tl(0x86, mac8) + [] == Tl(0x86, mac8);
  }

  /** The EXTERNAL AUTHENTICATE command of one attempt. */
  function EaCommand(v: EaVariant, eifd: Bytes, mac8: Bytes): (r: Command)
    requires |eifd| == 32 && |mac8| == 8
    ensures r.ins == 0x82 && r.p1 == 0 && r.p2 == 0 && r.cla == v.cla
    ensures |r.data| == (if v.framing == RawBody then 40 else 46)
    ensures r.le == NormLe(v.le)
    ensures v.framing == RawBody ==> r.data == eifd + mac8
    ensures v.framing == TlvBody ==> r.data == EaTlvBody(eifd, mac8)
  {
    var body := if v.framing == RawBody then EaRawBody(eifd, mac8) else EaTlvBody(eifd, mac8);
    CreateApdu(v.cla, 0x82, 0x00, 0x00, body, v.le)
  }

  /** The input the answer's MAC is checked over: 7C, the 7C length, 80, the E_ICC length (each as one byte), E_ICC. */
  function EaMacInput(t7c: Bytes, eicc: Bytes): Bytes
  {
    [0x7C, (|t7c| % 256) as byte, 0x80, (|eicc| % 256) as byte] + eicc
  }

  /** For the 44-byte 7C value and the 32-byte E_ICC of a TLV answer, the MAC input starts 7C 2C 80 20. */
  lemma EaMacInputOfAnswer(t7c: Bytes, eicc: Bytes)
    requires |t7c| == 0x2C && |eicc| == 32
    ensures EaMacInput(t7c, eicc) == [0x7C, 0x2C, 0x80, 0x20] + eicc
  {
  }

  /**
   * The check of the answer to EXTERNAL AUTHENTICATE, which yields K.ICC: the value of 7C (or the
   * whole answer when there is no 7C), a non-empty 0x80 object E_ICC, a 0x86 MAC checked on its
   * first 8 bytes only when it has at least 8, E_ICC decrypted with K_enc and a zero IV (a throw
   * when it is not a whole number of blocks), at least 32 bytes of plaintext, and the first two
   * blocks equal to RND.ICC and RND.IFD rotated left by one. K.ICC is bytes 16 to 32.
   */
  function ParseEaResponse(p: Primitives, kEnc16: Bytes, kMac16: Bytes, rndIcc: Bytes, rndIfd: Bytes, data: Bytes): (r: Outcome<Bytes>)
    requires |kEnc16| == 16 && |kMac16| == 16
    ensures data == [] ==> r == Reject
    ensures r.Pass? ==> |r.value| == 16
  {
    var t7c := if TlvFind(data, 0x7C).Some? then TlvFind(data, 0x7C).value else data;
    var eicc := TlvFind(t7c, 0x80);
    var macEa := TlvFind(t7c, 0x86);
    if eicc.None? || |eicc.value| == 0 then Reject
    else if macEa.Some? && |macEa.value| >= 8 && macEa.value[..8] != RetailMac(p, kMac16, EaMacInput(t7c, eicc.value)) then Reject
    else if |eicc.value| % 8 != 0 then Abort
    else
      var plain := TripleDesCbcDecrypt(p, kEnc16, ZeroBlock, eicc.value);
      if |plain| < 32 then Reject
      else if RotL1(rndIcc) != plain[..8] || RotL1(rndIfd) != plain[8..16] then Reject
      else Pass(plain[16..32])
  }

  /**
   * An accepted answer carries E_ICC that decrypts to RND.ICC and RND.IFD rotated, followed by the
   * returned K.ICC; when a MAC of 8 bytes or more is present it matched.
   */
  lemma EaAcceptedOnlyIfAuthentic(p: Primitives, kEnc16: Bytes, kMac16: Bytes, rndIcc: Bytes, rndIfd: Bytes, data: Bytes)
    requires |kEnc16| == 16 && |kMac16| == 16
    ensures var r := ParseEaResponse(p, kEnc16, kMac16, rndIcc, rndIfd, data);
      var t7c := if TlvFind(data, 0x7C).Some? then TlvFind(data, 0x7C).value else data;
      r.Pass? ==>
        TlvFind(t7c, 0x80).Some? && |TlvFind(t7c, 0x80).value| >= 32 && |TlvFind(t7c, 0x80).value| % 8 == 0 &&
        (var plain := TripleDesCbcDecrypt(p, kEnc16, ZeroBlock, TlvFind(t7c, 0x80).value);
         plain[..8] == RotL1(rndIcc) && plain[8..16] == RotL1(rndIfd) && r.value == plain[16..32] && |r.value| == 16) &&
        (TlvFind(t7c, 0x86).Some? && |TlvFind(t7c, 0x86).value| >= 8 ==>
           TlvFind(t7c, 0x86).value[..8] == RetailMac(p, kMac16, EaMacInput(t7c, TlvFind(t7c, 0x80).value)))
  {
  }

  /**
   * The answer of a card following the service's conventions, for the 32-byte plaintext `s`: the
   * cryptogram E_ICC of `s` under K_enc with a zero IV, and its MAC over 7C 2C 80 20 E_ICC, framed
   * like the TLV command body.
   */
  function EaAnswer(p: Primitives, kEnc16: Bytes, kMac16: Bytes, s: Bytes): Bytes
    requires |kEnc16| == 16 && |kMac16| == 16 && |s| == 32
  {
    var eicc := TripleDesCbcEncrypt(p, kEnc16, ZeroBlock, s);
    EaTlvBody(eicc, RetailMac(p, kMac16, [0x7C, 0x2C, 0x80, 0x20] + eicc))
  }

  /** An answer whose objects are found where the card put them is judged by the decrypted randoms alone. */
  lemma EaFieldsChecked(p: Primitives, kEnc16: Bytes, kMac16: Bytes, rndIcc: Bytes, rndIfd: Bytes,
                        data: Bytes, inner: Bytes, eicc: Bytes, mac: Bytes, s: Bytes)
    requires |kEnc16| == 16 && |kMac16| == 16 && |inner| == 0x2C && |eicc| == 32 && |mac| == 8
    requires TlvFind(data, 0x7C) == Some(inner)
    requires TlvFind(inner, 0x80) == Some(eicc)
    requires TlvFind(inner, 0x86) == Some(mac)
    requires mac == RetailMac(p, kMac16, [0x7C, 0x2C, 0x80, 0x20] + eicc)
    requires TripleDesCbcDecrypt(p, kEnc16, ZeroBlock, eicc) == s
    ensures ParseEaResponse(p, kEnc16, kMac16, rndIcc, rndIfd, data)
         == if RotL1(rndIcc) != s[..8] || RotL1(rndIfd) != s[8..16] then Reject else Pass(s[16..32])
  {
    EaMacInputOfAnswer(inner, eicc);
    assert mac[..8] == mac;
  }

  /** Such an answer passes the TLV and MAC checks and is judged by the randoms its plaintext holds alone. */
  lemma EaAnswerChecked(p: Primitives, kEnc16: Bytes, kMac16: Bytes, rndIcc: Bytes, rndIfd: Bytes, s: Bytes)
    requires DesInverts(p)
    requires |kEnc16| == 16 && |kMac16| == 16 && |s| == 32
    ensures ParseEaResponse(p, kEnc16, kMac16, rndIcc, rndIfd, EaAnswer(p, kEnc16, kMac16, s))
         == if RotL1(rndIcc) != s[..8] || RotL1(rndIfd) != s[8..16] then Reject else Pass(s[16..32])
  {
    var eicc := TripleDesCbcEncrypt(p, kEnc16, ZeroBlock, s);
    var mac := RetailMac(p, kMac16, [0x7C, 0x2C, 0x80, 0x20] + eicc);
    TripleDesRoundTrip(p, kEnc16, ZeroBlock, s);
    EaTlvBodyIsTlv(eicc, mac);
    EaFieldsChecked(p, kEnc16, kMac16, rndIcc, rndIfd, EaAnswer(p, kEnc16, kMac16, s), Tl(0x80, eicc) + Tl(0x86, mac), eicc, mac, s);
  }

  /** The answer carrying RND.ICC and RND.IFD rotated left by one and K.ICC is accepted and yields K.ICC. */
  lemma EaRoundTrip(p: Primitives, kEnc16: Bytes, kMac16: Bytes, rndIcc: Bytes, rndIfd: Bytes, kIcc16: Bytes)
    requires DesInverts(p)
    requires |kEnc16| == 16 && |kMac16| == 16 && |rndIcc| == 8 && |rndIfd| == 8 && |kIcc16| == 16
    ensures ParseEaResponse(p, kEnc16, kMac16, rndIcc, rndIfd,
                            EaAnswer(p, kEnc16, kMac16, RotL1(rndIcc) + RotL1(rndIfd) + kIcc16)) == Pass(kIcc16)
  {
    var a, b := RotL1(rndIcc), RotL1(rndIfd);
    var s := a + b + kIcc16;
    assert s[..8] == a;
    assert s[8..16] == b;
    assert s[16..32] == kIcc16;
    EaAnswerChecked(p, kEnc16, kMac16, rndIcc, rndIfd, s);
  }

  /** An answer holding RND.ICC unrotated (RND.ICC || RND.IFD || K.ICC) is refused unless rotating RND.ICC leaves it unchanged. */
  lemma UnrotatedRandomsRefused(p: Primitives, kEnc16: Bytes, kMac16: Bytes, rndIcc: Bytes, rndIfd: Bytes, kIcc16: Bytes)
    requires DesInverts(p)
    requires |kEnc16| == 16 && |kMac16| == 16 && |rndIcc| == 8 && |rndIfd| == 8 && |kIcc16| == 16
    requires RotL1(rndIcc) != rndIcc
    ensures ParseEaResponse(p, kEnc16, kMac16, rndIcc, rndIfd,
                            EaAnswer(p, kEnc16, kMac16, rndIcc + rndIfd + kIcc16)) == Reject
  {
    var s := rndIcc + rndIfd + kIcc16;
    EaAnswerChecked(p, kEnc16, kMac16, rndIcc, rndIfd, s);
    assert s[..8] == rndIcc;
  }
}

=== FILE: crypto.dfy ===
/**
 * The cryptographic helpers of the NFC service: DES key parity, ISO/IEC 9797-1 padding method 2,
 * DES and triple-DES (K1 K2 K1) in CBC mode without padding, ISO/IEC 9797-1 MAC algorithm 3
 * (the "retail MAC") and the SHA-1 key derivation.
 *
 * SHA-1 and the DES block cipher are library calls: they stay uninterpreted and enter as the
 * function values of a `Primitives` record. Everything built on them is defined here.
 */
module Crypto {
  import opened Octets

  /** One DES block, and also one single-DES key: 8 bytes. */
  type Block = b: Bytes | |b| == 8 witness [0, 0, 0, 0, 0, 0, 0, 0]

  /** A SHA-1 digest: 20 bytes. */
  type Digest = d: Bytes | |d| == 20 witness seq(20, _ => 0)

  /** A triple-DES key in its 24-byte form K1 K2 K3. */
  type Key24 = k: Bytes | |k| == 24 witness seq(24, _ => 0)

  /** The library primitives: SHA-1, and DES encryption and decryption of one block under one key. */
  datatype Primitives = Primitives(
    sha1: Bytes -> Digest,
    desEncrypt: (Block, Block) -> Block,
    desDecrypt: (Block, Block) -> Block)

  /** Under every key, DES decryption undoes DES encryption and the other way round. */
  ghost predicate DesInverts(p: Primitives)
  {
    && (forall k: Block, b: Block :: p.desDecrypt(k, p.desEncrypt(k, b)) == b)
    && (forall k: Block, b: Block :: p.desEncrypt(k, p.desDecrypt(k, b)) == b)
  }

  /** The all-zero block: the IV `new byte[8]`. */
  const ZeroBlock: Block := [0, 0, 0, 0, 0, 0, 0, 0]

  // ---------------------------------------------------------------- key parity

  /** Number of set bits of `b`. */
  function PopCount(b: nat): nat
  {
    if b == 0 then 0 else b % 2 + PopCount(b / 2)
  }

  /** A byte with an odd number of set bits, as a DES key byte should be. */
  predicate OddParity(b: byte)
  {
    PopCount(b as nat) % 2 == 1
  }

  /** The per-byte step of FixDesParity: `b ^= 0x01` when the count of set bits is even. */
  function FixByte(b: byte): (r: byte)
    ensures OddParity(r)
    ensures r / 2 == b / 2
    ensures OddParity(b) ==> r == b
  {
    if PopCount(b as nat) % 2 == 0 then
      XorOne(b);
      FlipLowBit(b, XorByte(b, 1));
      XorByte(b, 1)
    else b
  }

  /** Changing only bit 0 of a byte changes the parity of its bit count. */
  lemma FlipLowBit(b: byte, r: byte)
    requires r == if b % 2 == 0 then b + 1 else b - 1
    ensures r / 2 == b / 2 && PopCount(r as nat) % 2 != PopCount(b as nat) % 2
  {
    assert r as nat / 2 == b as nat / 2;
    assert PopCount(r as nat) == r as nat % 2 + PopCount(b as nat / 2);
    assert PopCount(b as nat) == b as nat % 2 + PopCount(b as nat / 2);
  }

  /** The value FixDesParity returns: every byte given odd parity through its bit 0. */
  function ParityFixed(key: Bytes): (r: Bytes)
    ensures |r| == |key|
    ensures forall i :: 0 <= i < |r| ==> OddParity(r[i]) && r[i] / 2 == key[i] / 2
  {
    seq(|key|, i requires 0 <= i < |key| => FixByte(key[i]))
  }

  /** Fixing parity twice is fixing it once. */
  lemma ParityFixedIdempotent(key: Bytes)
    ensures ParityFixed(ParityFixed(key)) == ParityFixed(key)
  {
    var once := ParityFixed(key);
    forall i | 0 <= i < |key|
      ensures ParityFixed(once)[i] == once[i]
    {
      assert OddParity(once[i]);
    }
  }

  /** The bit-counting loop of `FixDesParity`: eight shifts, adding each low bit. */
  method CountOnes(b: byte) returns (ones: nat)
    ensures ones == PopCount(b as nat)
  {
    ones := 0;
    var bits: nat := b as nat;
    for k := 0 to 8
      invariant bits < Pow2(8 - k)
      invariant ones + PopCount(bits) == PopCount(b as nat)
    {
      ones := ones + bits % 2;
      bits := bits / 2;
    }
    assert bits == 0;
  }

  /** `FixDesParity`: a copy of `key` in which every byte gets odd parity, by counting its bits. */
  method FixDesParity(key: Bytes) returns (r: Bytes)
    ensures r == ParityFixed(key)
  {
    var copy := new byte[|key|](i requires 0 <= i < |key| => key[i]);
    for i := 0 to copy.Length
      invariant copy[..] == ParityFixed(key)[..i] + key[i..]
    {
      var b := copy[i];
      assert b == key[i];
      var ones := CountOnes(b);
      if ones % 2 == 0 {
        b := XorByte(b, 1);
      }
      assert b == FixByte(key[i]);
      copy[i] := b;
      assert copy[..] == ParityFixed(key)[..i + 1] + key[i + 1..];
    }
    r := copy[..];
  }

  // ---------------------------------------------------------------- padding method 2

  /** `Iso9797M2Pad`: `input`, then 0x80, then the fewest zero bytes that fill the last block. */
  function Iso9797M2Pad(input: Bytes, block: nat): (r: Bytes)
    requires block > 0
    ensures |r| % block == 0
    ensures |input| < |r| <= |input| + block
    ensures r[..|input|] == input && r[|input|] == 0x80
    ensures forall i :: |input| < i < |r| ==> r[i] == 0
  {
    var padLen := block - (|input| + 1) % block;
    var padLen := if padLen == block then 0 else padLen;
    PaddedLength(|input| + 1, block);
    input + [0x80] + Zeros(padLen)
  }

  /** Adding `block - m % block` (or nothing, when that is a whole block) to `m` reaches a multiple of `block`. */
  lemma PaddedLength(m: nat, block: nat)
    requires block > 0
    ensures var padLen := if m % block == 0 then 0 else block - m % block;
      (m + padLen) % block == 0
  {
    var d, q := m / block, m % block;
    assert m == d * block + q;
    if q != 0 {
      assert m + block - q == (d + 1) * block;
      MultipleMod(d + 1, block);
    } else {
      MultipleMod(d, block);
    }
  }

  /** `PadM2`, the copy of the padding kept next to the SM code, is the 8-byte instance of `Iso9797M2Pad`. */
  function PadM2(data: Bytes): (r: Bytes)
    ensures r == Iso9797M2Pad(data, 8)
  {
    var padLen := 8 - (|data| + 1) % 8;
    var padLen := if padLen == 8 then 0 else padLen;
    data + [0x80] + Zeros(padLen)
  }

  /** `s` without its trailing zero bytes. */
  function StripZeros(s: Bytes): (r: Bytes)
    ensures r <= s
    ensures r == [] || r[|r| - 1] != 0
    ensures forall i :: |r| <= i < |s| ==> s[i] == 0
  {
    if s != [] && s[|s| - 1] == 0 then StripZeros(s[..|s| - 1]) else s
  }

  /** What `UnpadM2` returns: trailing zero bytes dropped, then one 0x80 marker if there is one. */
  function Unpadded(s: Bytes): (r: Bytes)
    ensures r <= s
  {
    var t := StripZeros(s);
    if t != [] && t[|t| - 1] == 0x80 then t[..|t| - 1] else t
  }

  /** `UnpadM2`: a backward scan over the trailing zeros and the marker. */
  method UnpadM2(input: Bytes) returns (r: Bytes)
    ensures r == Unpadded(input)
  {
    var i := |input| - 1;
    assert input[..i + 1] == input;
    while i >= 0 && input[i] == 0
      invariant -1 <= i < |input|
      invariant StripZeros(input) == StripZeros(input[..i + 1])
    {
      assert input[..i + 1][..i] == input[..i];
      i := i - 1;
    }
    ghost var t := input[..i + 1];
    assert StripZeros(t) == t;
    if i >= 0 && input[i] == 0x80 {
      assert t[..|t| - 1] == input[..i];
      i := i - 1;
    }
    r := input[..i + 1];
  }

  lemma {:induction false} StripZerosAfter(t: Bytes, n: nat)
    requires t != [] && t[|t| - 1] != 0
    ensures StripZeros(t + Zeros(n)) == t
  {
    if n > 0 {
      assert (t + Zeros(n))[..|t| + n - 1] == t + Zeros(n - 1);
      StripZerosAfter(t, n - 1);
    } else {
      assert t + Zeros(0) == t;
    }
  }

  /** Removing the padding recovers the input, for every input and block size: the pair round-trips. */
  lemma UnpadAfterPad(x: Bytes, block: nat)
    requires block > 0
    ensures Unpadded(Iso9797M2Pad(x, block)) == x
  {
    var padded := Iso9797M2Pad(x, block);
    var n := |padded| - |x| - 1;
    assert padded == (x + [0x80]) + Zeros(n);
    StripZerosAfter(x + [0x80], n);
    assert (x + [0x80])[..|x|] == x;
  }

  // ---------------------------------------------------------------- block cipher modes

  function XorBlock(a: Block, b: Block): (r: Block)
  {
    seq(8, i requires 0 <= i < 8 => XorByte(a[i], b[i]))
  }

  lemma XorBlockCancels(a: Block, b: Block)
    ensures XorBlock(XorBlock(a, b), b) == a
  {
    forall i | 0 <= i < 8
      ensures XorBlock(XorBlock(a, b), b)[i] == a[i]
    {
      XorByteCancels(a[i], b[i]);
    }
  }

  /** CBC encryption without padding: C_i = e(P_i xor C_(i-1)), C_0 being the IV. */
  function CbcEncrypt(encrypt: Block -> Block, iv: Block, data: Bytes): (r: Bytes)
    requires |data| % 8 == 0
    ensures |r| == |data|
    decreases |data|
  {
    if data == [] then []
    else
      var c := encrypt(XorBlock(data[..8], iv));
      c + CbcEncrypt(encrypt, c, data[8..])
  }

  /** CBC decryption without padding: P_i = d(C_i) xor C_(i-1). */
  function CbcDecrypt(decrypt: Block -> Block, iv: Block, data: Bytes): (r: Bytes)
    requires |data| % 8 == 0
    ensures |r| == |data|
    decreases |data|
  {
    if data == [] then []
    else XorBlock(decrypt(data[..8]), iv) + CbcDecrypt(decrypt, data[..8], data[8..])
  }

  lemma {:induction false} CbcRoundTrip(encrypt: Block -> Block, decrypt: Block -> Block, iv: Block, data: Bytes)
    requires forall b :: decrypt(encrypt(b)) == b
    requires |data| % 8 == 0
    ensures CbcDecrypt(decrypt, iv, CbcEncrypt(encrypt, iv, data)) == data
    decreases |data|
  {
    if data != [] {
      var c := encrypt(XorBlock(data[..8], iv));
      var e := CbcEncrypt(encrypt, iv, data);
      assert e == c + CbcEncrypt(encrypt, c, data[8..]);
      assert e[..8] == c && e[8..] == CbcEncrypt(encrypt, c, data[8..]);
      CbcRoundTrip(encrypt, decrypt, c, data[8..]);
      XorBlockCancels(data[..8], iv);
      assert data == data[..8] + data[8..];
    }
  }

  /** ISO/IEC 9797-1's chaining value H_q: H_0 = iv, H_i = e(D_i xor H_(i-1)). */
  function CbcChain(encrypt: Block -> Block, h: Block, data: Bytes): Block
    requires |data| % 8 == 0
    decreases |data|
  {
    if data == [] then h else CbcChain(encrypt, encrypt(XorBlock(data[..8], h)), data[8..])
  }

  /** The last CBC ciphertext block is the chaining value of the whole input. */
  lemma {:induction false} CbcLastBlock(encrypt: Block -> Block, iv: Block, data: Bytes)
    requires |data| % 8 == 0 && data != []
    ensures CbcEncrypt(encrypt, iv, data)[|data| - 8..] == CbcChain(encrypt, iv, data)
    decreases |data|
  {
    var c := encrypt(XorBlock(data[..8], iv));
    var e := CbcEncrypt(encrypt, iv, data);
    assert e == c + CbcEncrypt(encrypt, c, data[8..]);
    if |data| > 8 {
      CbcLastBlock(encrypt, c, data[8..]);
      assert e[|data| - 8..] == CbcEncrypt(encrypt, c, data[8..])[|data| - 16..];
    } else {
      assert data[8..] == [];
    }
  }

  /** `DesCbcEncrypt`: single DES in CBC mode, no padding, under the parity-fixed key. */
  function DesCbcEncrypt(p: Primitives, k8: Block, iv: Block, data: Bytes): (r: Bytes)
    requires |data| % 8 == 0
    ensures |r| == |data|
  {
    var k: Block := ParityFixed(k8);
    CbcEncrypt((b: Block) => p.desEncrypt(k, b), iv, data)
  }

  /** `DesEcbEncrypt`: one block under the parity-fixed key. */
  function DesEcbEncrypt(p: Primitives, k8: Block, block: Block): Block
  {
    p.desEncrypt(ParityFixed(k8), block)
  }

  /** `DesEcbDecrypt`: one block under the parity-fixed key. */
  function DesEcbDecrypt(p: Primitives, k8: Block, block: Block): Block
  {
    p.desDecrypt(ParityFixed(k8), block)
  }

  /** `ExpandTo24`: a 24-byte key is kept, a 16-byte key K1 K2 becomes K1 K2 K1. */
  function ExpandTo24(key: Bytes): (r: Key24)
    requires |key| == 16 || |key| == 24
    ensures r[..16] == key[..16]
    ensures |key| == 24 ==> r == key
    ensures |key| == 16 ==> r[16..] == r[..8]
  {
    if |key| == 24 then key else key + key[..8]
  }

  /** Triple DES (encrypt-decrypt-encrypt) of one block under K1 K2 K3. */
  function TdesEncryptBlock(p: Primitives, k: Key24, b: Block): Block
  {
    p.desEncrypt(k[16..], p.desDecrypt(k[8..16], p.desEncrypt(k[..8], b)))
  }

  function TdesDecryptBlock(p: Primitives, k: Key24, b: Block): Block
  {
    p.desDecrypt(k[..8], p.desEncrypt(k[8..16], p.desDecrypt(k[16..], b)))
  }

  /** `TripleDesCbcEncryptNoPadVarIV`: triple DES in CBC mode, no padding, given IV. */
  function TripleDesCbcEncrypt(p: Primitives, key: Bytes, iv: Block, data: Bytes): (r: Bytes)
    requires |key| == 16 || |key| == 24
    requires |data| % 8 == 0
    ensures |r| == |data|
  {
    var k := ExpandTo24(key);
    CbcEncrypt((b: Block) => TdesEncryptBlock(p, k, b), iv, data)
  }

  /** `TripleDesCbcDecryptNoPadVarIV`: triple DES in CBC mode, no padding, given IV. */
  function TripleDesCbcDecrypt(p: Primitives, key: Bytes, iv: Block, data: Bytes): (r: Bytes)
    requires |key| == 16 || |key| == 24
    requires |data| % 8 == 0
    ensures |r| == |data|
  {
    var k := ExpandTo24(key);
    CbcDecrypt((b: Block) => TdesDecryptBlock(p, k, b), iv, data)
  }

  /** With a DES that inverts itself, triple-DES CBC decryption undoes encryption under the same key and IV. */
  lemma TripleDesRoundTrip(p: Primitives, key: Bytes, iv: Block, data: Bytes)
    requires DesInverts(p)
    requires |key| == 16 || |key| == 24
    requires |data| % 8 == 0
    ensures TripleDesCbcDecrypt(p, key, iv, TripleDesCbcEncrypt(p, key, iv, data)) == data
  {
    var k := ExpandTo24(key);
    var enc := (b: Block) => TdesEncryptBlock(p, k, b);
    var dec := (b: Block) => TdesDecryptBlock(p, k, b);
    forall b: Block
      ensures dec(enc(b)) == b
    {
      var x := p.desEncrypt(k[..8], b);
      var y := p.desDecrypt(k[8..16], x);
      assert p.desDecrypt(k[16..], p.desEncrypt(k[16..], y)) == y;
      assert p.desEncrypt(k[8..16], y) == x;
      assert p.desDecrypt(k[..8], x) == b;
    }
    CbcRoundTrip(enc, dec, iv, data);
  }

  // ---------------------------------------------------------------- retail MAC

  /** `SplitK1K2`: the two halves of a 16-byte MAC key, each given odd parity. */
  function SplitK1K2(key16: Bytes): (r: (Block, Block))
    requires |key16| == 16
    ensures forall i :: 0 <= i < 8 ==>
      && OddParity(r.0[i]) && r.0[i] / 2 == key16[i] / 2
      && OddParity(r.1[i]) && r.1[i] / 2 == key16[8 + i] / 2
  {
    (ParityFixed(key16[..8]), ParityFixed(key16[8..16]))
  }

  /** `RetailMacIso9797Alg3`: pad, CBC under K1 with zero IV, then decrypt the last block under K2 and encrypt under K1. */
  function RetailMac(p: Primitives, kmac16: Bytes, input: Bytes): Block
    requires |kmac16| == 16
  {
    var (k1, k2) := SplitK1K2(kmac16);
    var padded := Iso9797M2Pad(input, 8);
    var y := DesCbcEncrypt(p, k1, ZeroBlock, padded);
    var last := y[|y| - 8..];
    var t := DesEcbDecrypt(p, k2, last);
    DesEcbEncrypt(p, k1, t)
  }

  /**
   * The retail MAC is ISO/IEC 9797-1 MAC algorithm 3 with padding method 2: the chaining value
   * of the padded input under K1, decrypted under K2 and encrypted again under K1, where K1 and
   * K2 are the parity-fixed key halves (fixing parity again inside the DES calls changes nothing).
   */
  lemma RetailMacIsAlgorithm3(p: Primitives, kmac16: Bytes, input: Bytes)
    requires |kmac16| == 16
    ensures
      var k1: Block := ParityFixed(kmac16[..8]);
      var k2: Block := ParityFixed(kmac16[8..16]);
      RetailMac(p, kmac16, input)
        == p.desEncrypt(k1, p.desDecrypt(k2,
             CbcChain((b: Block) => p.desEncrypt(k1, b), ZeroBlock, Iso9797M2Pad(input, 8))))
  {
    var k1: Block := ParityFixed(kmac16[..8]);
    var k2: Block := ParityFixed(kmac16[8..16]);
    ParityFixedIdempotent(kmac16[..8]);
    ParityFixedIdempotent(kmac16[8..16]);
    var padded := Iso9797M2Pad(input, 8);
    CbcLastBlock((b: Block) => p.desEncrypt(k1, b), ZeroBlock, padded);
  }

  // ---------------------------------------------------------------- key derivation

  /** `Kdf16` of the BAC key derivation: the first 16 bytes of SHA-1(kseed || counter as 4 big-endian bytes). */
  function Kdf16(p: Primitives, kseed: Bytes, counter: nat): (r: Bytes)
    requires counter < 0x1_0000_0000
    ensures |r| == 16
  {
    p.sha1(kseed + Be32(counter))[..16]
  }
}

=== FILE: flow.dfy ===
/**
 * The session as a function of the card's answers: the fallback loops of BAC, one protected
 * exchange, the protected SELECT attempts, the two READ BINARY loops and the whole session from
 * SELECT AID to the delivery of EF.COM. The methods of `NfcService` are proved to compute these.
 */
module Flow {
  import opened Wrappers
  import opened Octets
  import opened Crypto
  import opened Apdu
  import opened SecureMessaging
  import opened Bac

  /** The tag: its reply to the last command of everything sent so far. */
  type Card = seq<Command> -> Reply

  // ---------------------------------------------------------------- fallback attempts

  /**
   * Sending `cmds` one after the other until a reply is accepted: the history afterwards and the
   * accepted reply, if any.
   */
  function Attempts(card: Card, sent: seq<Command>, cmds: seq<Command>, accept: (Bytes, int) -> bool)
    : (r: (seq<Command>, Option<(Bytes, int)>))
    ensures |sent| <= |r.0| <= |sent| + |cmds| && r.0[..|sent|] == sent
    ensures r.1.Some? ==> |r.0| > |sent| && r.1.value == Received(card(r.0)) && accept(r.1.value.0, r.1.value.1)
    ensures r.1.None? ==> |r.0| == |sent| + |cmds|
    decreases |cmds|
  {
    if cmds == [] then (sent, None)
    else
      var s := sent + [cmds[0]];
      var reply := Received(card(s));
      if accept(reply.0, reply.1) then (s, Some(reply)) else Attempts(card, s, cmds[1..], accept)
  }

  /** The reply to the last command of `history` was not accepted. */
  predicate Refused(card: Card, accept: (Bytes, int) -> bool, history: seq<Command>)
  {
    !accept(Received(card(history)).0, Received(card(history)).1)
  }

  /**
   * The attempts are a prefix of `cmds`, in order; the accepted reply is the reply to the last one
   * and every earlier one was refused; without an accepted reply all of `cmds` were sent.
   */
  lemma {:induction false} AttemptsStopAtFirst(card: Card, sent: seq<Command>, cmds: seq<Command>, accept: (Bytes, int) -> bool)
    ensures var (s, a) := Attempts(card, sent, cmds, accept);
      && |sent| <= |s| <= |sent| + |cmds|
      && s == sent + cmds[..|s| - |sent|]
      && (a.Some? ==> |s| > |sent| && a.value == Received(card(s)) && accept(a.value.0, a.value.1))
      && (a.None? ==> s == sent + cmds)
      && (forall j :: |sent| < j < |s| ==> Refused(card, accept, s[..j]))
    decreases |cmds|
  {
    if cmds != [] {
      var s1 := sent + [cmds[0]];
      var (s, a) := Attempts(card, sent, cmds, accept);
      if !accept(Received(card(s1)).0, Received(card(s1)).1) {
        AttemptsStopAtFirst(card, s1, cmds[1..], accept);
        assert s == sent + cmds[..|s| - |sent|] by {
          assert s == s1 + cmds[1..][..|s| - |s1|];
          assert cmds[..|s| - |sent|] == [cmds[0]] + cmds[1..][..|s| - |s1|];
        }
        assert a.None? ==> s == sent + cmds by {
          assert cmds == [cmds[0]] + cmds[1..];
        }
        forall j | |sent| < j < |s|
          ensures Refused(card, accept, s[..j])
        {
          if j == |s1| {
            assert s[..j] == s1;
          }
        }
      } else {
        assert cmds[..1] == [cmds[0]];
      }
    }
  }

  // ---------------------------------------------------------------- BAC

  /** GET CHALLENGE with Le 8, then with Le 256. */
  const ChallengeCommands: seq<Command> := [GetChallenge(8), GetChallenge(256)]

  /** A challenge reply is taken when it has status 90 00 and at least 8 bytes. */
  const ChallengeOk: (Bytes, int) -> bool := (data: Bytes, sw: int) => sw == SwOk && |data| >= 8

  /**
   * `BacGetChallengeAsync`: one or two GET CHALLENGE commands, Le 8 first; RND.ICC is the first 8
   * bytes of the first reply with status 90 00 and at least 8 bytes.
   */
  function Challenge(card: Card, sent: seq<Command>): (r: (seq<Command>, Option<Bytes>))
    ensures |sent| + 1 <= |r.0| <= |sent| + 2 && r.0[..|sent| + 1] == sent + [GetChallenge(8)]
    ensures |r.0| == |sent| + 2 ==> r.0[|sent| + 1] == GetChallenge(256) && Refused(card, ChallengeOk, r.0[..|sent| + 1])
    ensures r.1.None? ==> |r.0| == |sent| + 2 && Refused(card, ChallengeOk, r.0)
    ensures r.1.Some? ==> |r.1.value| == 8 && Received(card(r.0)).1 == SwOk && |Received(card(r.0)).0| >= 8 && r.1.value == Received(card(r.0)).0[..8]
  {
    var (s, a) := Attempts(card, sent, ChallengeCommands, ChallengeOk);
    AttemptsStopAtFirst(card, sent, ChallengeCommands, ChallengeOk);
    assert |s| == |sent| + 2 ==> s[..|sent| + 1] == sent + [GetChallenge(8)];
    assert a.Some? ==> ChallengeOk(a.value.0, a.value.1) && |a.value.0| >= 8;
    (s, if a.Some? then Some(a.value.0[..8]) else None)
  }

  /** The eight EXTERNAL AUTHENTICATE commands, in the order of `EaVariants`. */
  function EaCommands(eifd: Bytes, mac8: Bytes): (r: seq<Command>)
    requires |eifd| == 32 && |mac8| == 8
    ensures |r| == |EaVariants| == 8
    ensures forall i :: 0 <= i < 8 ==> r[i] == EaCommand(EaVariants[i], eifd, mac8)
  {
    seq(8, i requires 0 <= i < 8 => EaCommand(EaVariants[i], eifd, mac8))
  }

  /** An EXTERNAL AUTHENTICATE reply is taken on status 90 00 alone. */
  const EaOk: (Bytes, int) -> bool := (data: Bytes, sw: int) => sw == SwOk

  /**
   * `BacExternalAuthenticateAsync`: the variants until one is answered with 90 00, then the check
   * of that answer, which yields K.ICC; no answer with 90 00 is a refusal.
   */
  function Authenticate(p: Primitives, kEnc16: Bytes, kMac16: Bytes, rndIcc: Bytes, rndIfd: Bytes,
                        card: Card, sent: seq<Command>, eifd: Bytes, mac8: Bytes): (r: (seq<Command>, Outcome<Bytes>))
    requires |kEnc16| == 16 && |kMac16| == 16 && |eifd| == 32 && |mac8| == 8
    ensures |sent| < |r.0| <= |sent| + 8 && r.0[..|sent|] == sent
    ensures r.1.Pass? ==> |r.1.value| == 16 && Received(card(r.0)).1 == SwOk
  {
    var (s, a) := Attempts(card, sent, EaCommands(eifd, mac8), EaOk);
    (s, if a.None? then Reject else ParseEaResponse(p, kEnc16, kMac16, rndIcc, rndIfd, a.value.0))
  }

  /**
   * At most eight commands are sent, the variants in order, and the first one answered with 90 00
   * is the last; K.ICC is only returned for an answer with 90 00 that passes the answer check.
   */
  lemma AuthenticateAttempts(p: Primitives, kEnc16: Bytes, kMac16: Bytes, rndIcc: Bytes, rndIfd: Bytes,
                             card: Card, sent: seq<Command>, eifd: Bytes, mac8: Bytes)
    requires |kEnc16| == 16 && |kMac16| == 16 && |eifd| == 32 && |mac8| == 8
    ensures var (s, r) := Authenticate(p, kEnc16, kMac16, rndIcc, rndIfd, card, sent, eifd, mac8);
      && |sent| < |s| <= |sent| + 8 && s[..|sent|] == sent
      && (forall i :: |sent| <= i < |s| ==> s[i] == EaCommand(EaVariants[i - |sent|], eifd, mac8))
      && (forall j :: |sent| < j < |s| ==> Received(card(s[..j])).1 != SwOk)
      && (r.Pass? ==> Received(card(s)).1 == SwOk &&
                      r == ParseEaResponse(p, kEnc16, kMac16, rndIcc, rndIfd, Received(card(s)).0))
      && (Received(card(s)).1 != SwOk ==> |s| == |sent| + 8 && r == Reject)
  {
    var cmds := EaCommands(eifd, mac8);
    var (s, a) := Attempts(card, sent, cmds, EaOk);
    AttemptsStopAtFirst(card, sent, cmds, EaOk);
    forall j | |sent| < j < |s|
      ensures Received(card(s[..j])).1 != SwOk
    {
      assert Refused(card, EaOk, s[..j]);
    }
  }

  // ---------------------------------------------------------------- secure messaging exchanges

  /** The session keys of the secure messaging channel. */
  datatype SessionKeys = SessionKeys(p: Primitives, enc: Bytes, mac: Bytes)

  /** Session keys of 16 bytes each, as `InitSM` derives them. */
  type SmKeys = k: SessionKeys | |k.enc| == 16 && |k.mac| == 16
    ghost witness SessionKeys(Primitives(b => Zeros(20), (k, b) => b, (k, b) => b), Zeros(16), Zeros(16))

  /** Everything an exchange changes: the commands sent, the counter and the cached header. */
  datatype Link = Link(sent: seq<Command>, ssc: Block, cached: Bytes)

  /**
   * One protected exchange: the counter is incremented and the command protected with it, the
   * command is sent and its header cached, the counter is incremented again and the answer is
   * checked with it. Yields the new state, the check's outcome and the raw status word.
   */
  function SmExchange(k: SmKeys, card: Card, w: Link, cla: byte, ins: byte, p1: byte, p2: byte,
                      data: Bytes, le: Option<int>): (r: (Link, Outcome<Bytes>, int))
    ensures |r.0.sent| == |w.sent| + 1 && r.0.sent[..|w.sent|] == w.sent
    ensures r.2 == Received(card(r.0.sent)).1
  {
    var ssc1 := Incremented(w.ssc);
    var cmd := ProtectCommand(k.p, k.enc, k.mac, ssc1, cla, ins, p1, p2, data, le);
    var s := w.sent + [cmd];
    var reply := Received(card(s));
    var ssc2 := Incremented(ssc1);
    var header := [cmd.cla, cmd.ins, cmd.p1, cmd.p2];
    (Link(s, ssc2, header), UnprotectResponse(k.p, k.enc, k.mac, ssc2, header, reply.0, reply.1), reply.1)
  }

  /**
   * One protected exchange sends one protected command, caches exactly its header, and advances
   * the counter by two.
   */
  lemma ExchangeAdvancesCounter(k: SmKeys, card: Card, w: Link, cla: byte, ins: byte, p1: byte, p2: byte,
                                data: Bytes, le: Option<int>)
    ensures var (w1, _, _) := SmExchange(k, card, w, cla, ins, p1, p2, data, le);
      && w1.sent == w.sent + [ProtectCommand(k.p, k.enc, k.mac, Incremented(w.ssc), cla, ins, p1, p2, data, le)]
      && w1.cached == [SmClass(cla), ins, p1, p2]
      && w1.ssc == IncrementedTimes(w.ssc, 2)
      && BeValue(w1.ssc) == (BeValue(w.ssc) + 2) % Pow256(8)
  {
    var twice := Incremented(Incremented(w.ssc));
    TwoIncrements(w.ssc);
    IncrementedTwice(w.ssc);
    assert SmExchange(k, card, w, cla, ins, p1, p2, data, le).0.ssc == twice;
  }

  /** EF.COM's file identifier. */
  const EfComFid: Bytes := [0x01, 0x1E]

  /**
   * `SmSelectByFidTry`: a protected SELECT of EF.COM; 90 00 when the answer passes the check,
   * otherwise the raw status word of the answer.
   */
  function SmSelect(k: SmKeys, card: Card, w: Link, p1: byte, p2: byte, le: Option<int>): (r: (Link, Outcome<int>))
    ensures |r.0.sent| == |w.sent| + 1 && r.0.sent[..|w.sent|] == w.sent
    ensures !r.1.Reject?
  {
    var (w1, out, sw) := SmExchange(k, card, w, 0x00, 0xA4, p1, p2, EfComFid, le);
    (w1, if out.Abort? then Abort else if out.Pass? then Pass(SwOk) else Pass(sw))
  }

  /**
   * A protected SELECT is reported as successful exactly when its answer passes the check or the
   * card's status word is 90 00, and it only fails by an exception.
   */
  lemma SmSelectStatus(k: SmKeys, card: Card, w: Link, p1: byte, p2: byte, le: Option<int>)
    ensures var (w1, out, sw) := SmExchange(k, card, w, 0x00, 0xA4, p1, p2, EfComFid, le);
      var (w2, r) := SmSelect(k, card, w, p1, p2, le);
      && w2 == w1 && !r.Reject?
      && (r == Pass(SwOk) <==> out.Pass? || (out.Reject? && sw == SwOk))
      && (r.Pass? && r.value != SwOk ==> r.value == sw && out.Reject?)
  {
  }

  /**
   * `SendSmReadBinary`: a protected READ BINARY at P1 P2 with Le `le`, 256 when `le` is not
   * positive; the plaintext and 90 00 when the answer passes the check, otherwise no bytes and the
   * raw status word.
   */
  function SmReadBinary(k: SmKeys, card: Card, w: Link, p1: byte, p2: byte, le: int): (r: (Link, Outcome<(Bytes, int)>))
    ensures |r.0.sent| == |w.sent| + 1 && r.0.sent[..|w.sent|] == w.sent
    ensures !r.1.Reject?
    ensures r.1.Pass? && r.1.value.1 != SwOk ==> r.1.value.0 == []
  {
    var (w1, out, sw) := SmExchange(k, card, w, 0x00, 0xB0, p1, p2, [], Some(if le <= 0 then 256 else le));
    (w1, if out.Abort? then Abort else if out.Pass? then Pass((out.value, SwOk)) else Pass(([], sw)))
  }

  // ---------------------------------------------------------------- READ BINARY loops

  /** P1 of a READ BINARY at `offset`: `(offset >> 8) & 0x7F`. */
  function OffsetP1(offset: nat): byte
  {
    (offset / 256 % 128) as byte
  }

  /** P2 of a READ BINARY at `offset`: `offset & 0xFF`. */
  function OffsetP2(offset: nat): byte
  {
    (offset % 256) as byte
  }

  /** Below 32768 the P1 P2 pair encodes the offset exactly. */
  lemma OffsetAddress(offset: nat)
    requires offset < 0x8000
    ensures OffsetP1(offset) as int * 256 + OffsetP2(offset) as int == offset
    ensures OffsetP1(offset) < 0x80
  {
  }

  /** One READ BINARY at an offset: the state after it and, unless it threw, the chunk and status word. */
  type Reader = (Link, nat) -> (Link, Outcome<(Bytes, int)>)

  /**
   * The chunked read loop from `offset` with `acc` read so far, continuing only from offsets up to
   * `cap`: it stops on a non-90 00 status, an empty chunk or a chunk shorter than 256 bytes, and
   * after an offset beyond `cap`; the bytes read until then are delivered. A throw ends it.
   */
  function ReadFrom(read: Reader, cap: nat, w: Link, offset: nat, acc: Bytes): (r: (Link, Outcome<Bytes>))
    requires offset <= cap
    ensures !r.1.Reject?
    decreases cap - offset
  {
    var (w1, res) := read(w, offset);
    if !res.Pass? then (w1, Abort)
    else
      var (chunk, sw) := res.value;
      if sw != SwOk || chunk == [] then (w1, Pass(acc))
      else if |chunk| < 256 || offset + |chunk| > cap then (w1, Pass(acc + chunk))
      else ReadFrom(read, cap, w1, offset + |chunk|, acc + chunk)
  }

  /** One turn of the read loop, for a read that answered `(w1, Pass((chunk, sw)))`. */
  lemma ReadFromTurn(read: Reader, cap: nat, w: Link, offset: nat, acc: Bytes, w1: Link, chunk: Bytes, sw: int)
    requires offset <= cap && read(w, offset) == (w1, Pass((chunk, sw)))
    ensures ReadFrom(read, cap, w, offset, acc) ==
      if sw != SwOk || chunk == [] then (w1, Pass(acc))
      else if |chunk| < 256 || offset + |chunk| > cap then (w1, Pass(acc + chunk))
      else ReadFrom(read, cap, w1, offset + |chunk|, acc + chunk)
  {
  }

  /** Every read sends exactly one READ BINARY command and advances the counter by `steps`. */
  ghost predicate ReadsOnce(read: Reader, steps: nat)
  {
    forall w: Link, offset: nat {:trigger read(w, offset)} ::
      var w1 := read(w, offset).0;
      && |w1.sent| == |w.sent| + 1 && w1.sent[..|w.sent|] == w.sent && w1.sent[|w.sent|].ins == 0xB0
      && w1.ssc == IncrementedTimes(w.ssc, steps)
  }

  /**
   * The loop sends only READ BINARY commands, the first being the read at `offset`, and at most
   * (cap + 256 - offset) / 256 of them.
   */
  lemma {:induction false} ReadFromSends(read: Reader, steps: nat, cap: nat, w: Link, offset: nat, acc: Bytes)
    requires ReadsOnce(read, steps) && offset <= cap
    ensures var w1 := ReadFrom(read, cap, w, offset, acc).0;
      && |w.sent| < |w1.sent| && w1.sent[..|w.sent|] == w.sent
      && w1.sent[|w.sent|] == read(w, offset).0.sent[|w.sent|]
      && (forall i :: |w.sent| <= i < |w1.sent| ==> w1.sent[i].ins == 0xB0)
      && (|w1.sent| - |w.sent|) * 256 <= cap + 256 - offset
    decreases cap - offset
  {
    var (w1, res) := read(w, offset);
    assert |w1.sent| == |w.sent| + 1 && w1.sent[..|w.sent|] == w.sent && w1.sent[|w.sent|].ins == 0xB0;
    if res.Pass? && !(res.value.1 != SwOk || res.value.0 == [] || |res.value.0| < 256 || offset + |res.value.0| > cap) {
      var chunk := res.value.0;
      var next := offset + |chunk|;
      ReadFromSends(read, steps, cap, w1, next, acc + chunk);
      var w2 := ReadFrom(read, cap, w1, next, acc + chunk).0;
      assert ReadFrom(read, cap, w, offset, acc).0 == w2;
      assert w2.sent[..|w.sent|] == w.sent by {
        assert w2.sent[..|w1.sent|][..|w.sent|] == w.sent;
      }
      assert w2.sent[|w.sent|] == w1.sent[|w.sent|] by {
        assert w2.sent[..|w1.sent|][|w.sent|] == w2.sent[|w.sent|];
      }
      forall i | |w.sent| <= i < |w2.sent|
        ensures w2.sent[i].ins == 0xB0
      {
        if i == |w.sent| {
          assert w2.sent[i] == w1.sent[i];
        }
      }
    } else {
      assert ReadFrom(read, cap, w, offset, acc).0 == w1;
    }
  }

  /** The loop advances the counter by `steps` for each command it sends. */
  lemma {:induction false} ReadFromCounter(read: Reader, steps: nat, cap: nat, w: Link, offset: nat, acc: Bytes)
    requires ReadsOnce(read, steps) && offset <= cap
    ensures var w1 := ReadFrom(read, cap, w, offset, acc).0;
      |w.sent| < |w1.sent| && w1.ssc == IncrementedTimes(w.ssc, steps * (|w1.sent| - |w.sent|))
    decreases cap - offset
  {
    var (w1, res) := read(w, offset);
    assert |w1.sent| == |w.sent| + 1 && w1.ssc == IncrementedTimes(w.ssc, steps);
    if res.Pass? && !(res.value.1 != SwOk || res.value.0 == [] || |res.value.0| < 256 || offset + |res.value.0| > cap) {
      var chunk := res.value.0;
      var next := offset + |chunk|;
      ReadFromCounter(read, steps, cap, w1, next, acc + chunk);
      var w2 := ReadFrom(read, cap, w1, next, acc + chunk).0;
      assert ReadFrom(read, cap, w, offset, acc).0 == w2;
      CounterSteps(w.ssc, w1.ssc, w2.ssc, steps, |w2.sent| - |w1.sent|, |w2.sent| - |w.sent|);
    } else {
      assert ReadFrom(read, cap, w, offset, acc).0 == w1;
      assert steps * (|w1.sent| - |w.sent|) == steps;
    }
  }

  /** `steps` increments followed by `n` times `steps` increments are `c = n + 1` times `steps`. */
  lemma CounterSteps(s: Bytes, s1: Bytes, s2: Bytes, steps: nat, n: nat, c: nat)
    requires s1 == IncrementedTimes(s, steps) && s2 == IncrementedTimes(s1, steps * n) && c == n + 1
    ensures s2 == IncrementedTimes(s, steps * c)
  {
    IncrementedTimesAdd(s, steps, steps * n);
    assert steps * c == steps + steps * n;
  }

  /** The loop delivers what it had read before followed by what it reads. */
  lemma {:induction false} ReadFromKeeps(read: Reader, cap: nat, w: Link, offset: nat, acc: Bytes)
    requires offset <= cap
    ensures var r := ReadFrom(read, cap, w, offset, acc).1;
      r.Pass? ==> |r.value| >= |acc| && r.value[..|acc|] == acc
    decreases cap - offset
  {
    var (w1, res) := read(w, offset);
    if res.Pass? && !(res.value.1 != SwOk || res.value.0 == [] || |res.value.0| < 256 || offset + |res.value.0| > cap) {
      var chunk := res.value.0;
      var next := offset + |chunk|;
      ReadFromKeeps(read, cap, w1, next, acc + chunk);
      var r := ReadFrom(read, cap, w1, next, acc + chunk).1;
      assert ReadFrom(read, cap, w, offset, acc).1 == r;
      if r.Pass? {
        assert r.value[..|acc + chunk|][..|acc|] == acc;
      }
    }
  }

  /** The protected reader of a session: Le 0, which is sent as 256. */
  function SmReader(k: SmKeys, card: Card): Reader
  {
    (w: Link, offset: nat) => SmReadBinary(k, card, w, OffsetP1(offset), OffsetP2(offset), 0)
  }

  /** `read(w, offset)`, named so that `IsSmReader` is only used where a proof asks for it. */
  function ReadAt(read: Reader, w: Link, offset: nat): (Link, Outcome<(Bytes, int)>)
  {
    read(w, offset)
  }

  /** `read` is the protected READ BINARY of a session with keys `k`. */
  ghost predicate IsSmReader(read: Reader, k: SmKeys, card: Card)
  {
    forall w: Link, offset: nat {:trigger ReadAt(read, w, offset)} ::
      ReadAt(read, w, offset) == SmReadBinary(k, card, w, OffsetP1(offset), OffsetP2(offset), 0)
  }

  lemma SmReaderIsSmReader(k: SmKeys, card: Card)
    ensures IsSmReader(SmReader(k, card), k, card)
  {
  }

  /** Each protected read sends one protected READ BINARY for its offset and advances the counter by two. */
  lemma SmReaderReadsOnce(k: SmKeys, card: Card)
    ensures ReadsOnce(SmReader(k, card), 2)
  {
    forall w: Link, offset: nat
      ensures var w1 := SmReader(k, card)(w, offset).0;
        && |w1.sent| == |w.sent| + 1 && w1.sent[..|w.sent|] == w.sent
        && w1.sent[|w.sent|].ins == 0xB0
        && w1.ssc == IncrementedTimes(w.ssc, 2)
    {
      ExchangeAdvancesCounter(k, card, w, 0x00, 0xB0, OffsetP1(offset), OffsetP2(offset), [], Some(256));
    }
  }

  /** The command a protected read sends: READ BINARY at the offset, Le 256, protected with the incremented counter. */
  lemma SmReaderCommand(k: SmKeys, card: Card, w: Link, offset: nat)
    ensures var w1 := SmReader(k, card)(w, offset).0;
      && |w1.sent| == |w.sent| + 1
      && w1.sent[|w.sent|] == ProtectCommand(k.p, k.enc, k.mac, Incremented(w.ssc), 0x00, 0xB0,
                                              OffsetP1(offset), OffsetP2(offset), [], Some(256))
  {
    ExchangeAdvancesCounter(k, card, w, 0x00, 0xB0, OffsetP1(offset), OffsetP2(offset), [], Some(256));
  }

  /** A plain READ BINARY at `offset` with Le 0, which is sent as 256. */
  function PlainRead(offset: nat): Command
  {
    CreateApdu(0x00, 0xB0, OffsetP1(offset), OffsetP2(offset), [], Some(0))
  }

  /** The plain reader of `PlainReadBinaryFallback`: the command is sent as it is and the reply taken as it comes. */
  function PlainReader(card: Card): Reader
  {
    (w: Link, offset: nat) =>
      var s := w.sent + [PlainRead(offset)];
      (w.(sent := s), Pass(Received(card(s))))
  }

  /** Each plain read sends one plain READ BINARY for its offset and leaves the counter alone. */
  lemma PlainReaderReadsOnce(card: Card)
    ensures ReadsOnce(PlainReader(card), 0)
  {
    forall w: Link, offset: nat
      ensures var w1 := PlainReader(card)(w, offset).0;
        && |w1.sent| == |w.sent| + 1 && w1.sent[..|w.sent|] == w.sent && w1.sent[|w.sent|].ins == 0xB0
        && w1.ssc == IncrementedTimes(w.ssc, 0)
    {
      assert PlainReader(card)(w, offset).0.sent[|w.sent|] == PlainRead(offset);
    }
  }

  /** The largest offset the protected read loop of `ReadLdsAsync` continues from. */
  const SmReadCap: nat := 8192

  /** The largest offset `PlainReadBinaryFallback` continues from. */
  const PlainReadCap: nat := 16384

  /**
   * A read loop with the cap of `ReadLdsAsync`, from offset 0, over reads that advance the counter
   * by two, sends at most 33 commands and advances the counter by two per command, modulo 2^64.
   */
  lemma SmReadLoop(read: Reader, w: Link)
    requires ReadsOnce(read, 2)
    ensures var w1 := ReadFrom(read, SmReadCap, w, 0, []).0;
      && |w.sent| < |w1.sent| <= |w.sent| + 33
      && BeValue(w1.ssc) == (BeValue(w.ssc) + 2 * (|w1.sent| - |w.sent|)) % Pow256(8)
  {
    ReadFromSends(read, 2, SmReadCap, w, 0, []);
    ReadFromCounter(read, 2, SmReadCap, w, 0, []);
    var w1 := ReadFrom(read, SmReadCap, w, 0, []).0;
    IncrementedTimesValue(w.ssc, 2 * (|w1.sent| - |w.sent|));
  }

  /**
   * A read loop with the cap of `PlainReadBinaryFallback`, from offset 0, over reads that leave the
   * counter alone, sends at most 65 commands and leaves the counter as it was.
   */
  lemma PlainReadLoop(read: Reader, w: Link)
    requires ReadsOnce(read, 0)
    ensures var w1 := ReadFrom(read, PlainReadCap, w, 0, []).0;
      |w.sent| < |w1.sent| <= |w.sent| + 65 && w1.ssc == w.ssc
  {
    ReadFromSends(read, 0, PlainReadCap, w, 0, []);
    ReadFromCounter(read, 0, PlainReadCap, w, 0, []);
    var w1 := ReadFrom(read, PlainReadCap, w, 0, []).0;
    assert 0 * (|w1.sent| - |w.sent|) == 0;
  }

  /** The SELECT of EF.COM without secure messaging. */
  const PlainSelect: Command := CreateApdu(0x00, 0xA4, 0x02, 0x0C, EfComFid, Some(256))

  /** One protected SELECT of EF.COM with P2 and Le: the state after it and the status word reported. */
  type Selector = (Link, byte, Option<int>) -> (Link, Outcome<int>)

  /** The protected SELECT of a session, always with P1 02. */
  function SmSelector(k: SmKeys, card: Card): Selector
  {
    (w: Link, p2: byte, le: Option<int>) => SmSelect(k, card, w, 0x02, p2, le)
  }

  /** Every SELECT sends exactly one command and only throws or reports a status word. */
  ghost predicate SelectsOnce(select: Selector)
  {
    forall w: Link, p2: byte, le: Option<int> {:trigger select(w, p2, le)} ::
      var (w1, r) := select(w, p2, le);
      |w1.sent| == |w.sent| + 1 && w1.sent[..|w.sent|] == w.sent && !r.Reject?
  }

  lemma SmSelectorSelectsOnce(k: SmKeys, card: Card)
    ensures SelectsOnce(SmSelector(k, card))
  {
    forall w: Link, p2: byte, le: Option<int>
      ensures var (w1, r) := SmSelector(k, card)(w, p2, le);
        |w1.sent| == |w.sent| + 1 && w1.sent[..|w.sent|] == w.sent && !r.Reject?
    {
      ExchangeAdvancesCounter(k, card, w, 0x00, 0xA4, 0x02, p2, EfComFid, le);
    }
  }

  /** The exchanges `ReadLdsAsync` is made of: protected SELECT, protected READ BINARY, plain READ BINARY. */
  datatype Exchanges = Exchanges(select: Selector, smRead: Reader, plainRead: Reader)

  /** The exchanges of a session with keys `k`. */
  function SessionExchanges(k: SmKeys, card: Card): Exchanges
  {
    Exchanges(SmSelector(k, card), SmReader(k, card), PlainReader(card))
  }

  /** Each exchange sends one command; protected reads advance the counter by two, plain ones leave it. */
  ghost predicate ExchangesOnce(x: Exchanges)
  {
    SelectsOnce(x.select) && ReadsOnce(x.smRead, 2) && ReadsOnce(x.plainRead, 0)
  }

  lemma SessionExchangesOnce(k: SmKeys, card: Card)
    ensures ExchangesOnce(SessionExchanges(k, card))
  {
    SmSelectorSelectsOnce(k, card);
    SmReaderReadsOnce(k, card);
    PlainReaderReadsOnce(card);
  }

  /**
   * The protected SELECT attempts of `ReadLdsAsync`: P2 0C with Le 256, then P2 00 with Le 256,
   * then P2 0C without Le, each only after the previous one neither threw nor reported 90 00.
   * Yields the state after the last attempt and what it reported.
   */
  function SelectEfCom(select: Selector, w: Link): (Link, Outcome<int>)
  {
    var (w1, r1) := select(w, 0x0C, Some(256));
    if r1.Abort? || r1 == Pass(SwOk) then (w1, r1)
    else
      var (w2, r2) := select(w1, 0x00, Some(256));
      if r2.Abort? || r2 == Pass(SwOk) then (w2, r2)
      else select(w2, 0x0C, None)
  }

  /**
   * `ReadLdsAsync`: the protected SELECT attempts, and after one reported 90 00 the protected read
   * loop from offset 0. When none did: a plain SELECT, and on 90 00 the plain read loop;
   * otherwise nothing is delivered. An exception ends it.
   */
  function ReadLds(x: Exchanges, card: Card, w: Link): (r: (Link, Outcome<Bytes>))
    ensures r.1.Reject? ==>
      r.0.sent != [] && r.0.sent[|r.0.sent| - 1] == PlainSelect && Received(card(r.0.sent)).1 != SwOk
  {
    var (w1, r) := SelectEfCom(x.select, w);
    ReadSelected(x, card, w1, r)
  }

  /**
   * What `ReadLdsAsync` does once the SELECT of EF.COM answered `sel`: an exception ends it, 90 00
   * starts the protected read loop, anything else the unprotected fallback.
   */
  function ReadSelected(x: Exchanges, card: Card, w: Link, sel: Outcome<int>): (r: (Link, Outcome<Bytes>))
    ensures r.1.Reject? ==>
      && !sel.Abort? && sel != Pass(SwOk)
      && r.0.sent == w.sent + [PlainSelect] && Received(card(r.0.sent)).1 != SwOk
  {
    if sel.Abort? then (w, Abort)
    else if sel == Pass(SwOk) then ReadFrom(x.smRead, SmReadCap, w, 0, [])
    else PlainFallback(x.plainRead, card, w)
  }

  /** The unprotected path of `ReadLdsAsync`: a plain SELECT of EF.COM, refused unless 90 00, then the plain read loop. */
  function PlainFallback(read: Reader, card: Card, w: Link): (Link, Outcome<Bytes>)
  {
    var s := w.sent + [PlainSelect];
    if Received(card(s)).1 != SwOk then (w.(sent := s), Reject)
    else ReadFrom(read, PlainReadCap, w.(sent := s), 0, [])
  }

  /**
   * Reading EF.COM sends at most 69 commands: up to three protected SELECTs, then at most 33
   * protected reads, or a plain SELECT and at most 65 plain reads.
   */
  lemma ReadLdsBounded(x: Exchanges, card: Card, w: Link)
    requires ExchangesOnce(x)
    ensures var (w1, _) := ReadLds(x, card, w);
      |w.sent| < |w1.sent| <= |w.sent| + 69 && w1.sent[..|w.sent|] == w.sent
  {
    var (w1, r1) := x.select(w, 0x0C, Some(256));
    var (w2, r2) := x.select(w1, 0x00, Some(256));
    var (w3, r3) := SelectEfCom(x.select, w);
    assert |w.sent| < |w3.sent| <= |w.sent| + 3 && w3.sent[..|w.sent|] == w.sent by {
      assert w2.sent[..|w1.sent|][..|w.sent|] == w2.sent[..|w.sent|];
      var (w4, _) := x.select(w2, 0x0C, None);
      assert w4.sent[..|w2.sent|][..|w.sent|] == w4.sent[..|w.sent|];
    }
    var w4 := w3.(sent := w3.sent + [PlainSelect]);
    var (w5, _) := ReadLds(x, card, w);
    if r3 == Pass(SwOk) {
      ReadFromSends(x.smRead, 2, SmReadCap, w3, 0, []);
      assert w5.sent[..|w3.sent|][..|w.sent|] == w5.sent[..|w.sent|];
    } else if !r3.Abort? && Received(card(w4.sent)).1 == SwOk {
      ReadFromSends(x.plainRead, 0, PlainReadCap, w4, 0, []);
      assert w5.sent[..|w4.sent|][..|w.sent|] == w5.sent[..|w.sent|];
    }
  }

  // ---------------------------------------------------------------- the whole session

  /** SELECT of the LDS application, A0 00 00 02 47 10 01. */
  const SelectAid: Command := CreateApdu(0x00, 0xA4, 0x04, 0x0C, [0xA0, 0x00, 0x00, 0x02, 0x47, 0x10, 0x01], Some(256))

  /**
   * Steps 1 to 5 of `DidDetectTags`, with the BAC keys derived from the MRZ and the randoms RND.IFD
   * and K.IFD given: SELECT AID, GET CHALLENGE, and EXTERNAL AUTHENTICATE with
   * E_IFD = 3DES-CBC(K_enc, 0, RND.IFD || RND.ICC || K.IFD) and its retail MAC under K_mac.
   * `Pass` carries RND.ICC and K.ICC; `Reject` ends the session, `Abort` is an exception.
   */
  function Handshake(p: Primitives, kEnc16: Bytes, kMac16: Bytes, card: Card, sent: seq<Command>,
                     rndIfd: Bytes, kIfd16: Bytes): (r: (seq<Command>, Outcome<(Bytes, Bytes)>))
    requires |kEnc16| == 16 && |kMac16| == 16 && |rndIfd| == 8 && |kIfd16| == 16
    ensures r.1.Pass? ==> |r.1.value.0| == 8 && |r.1.value.1| == 16
    ensures |sent| < |r.0| && r.0[..|sent|] == sent && r.0[|sent|] == SelectAid
  {
    var s1 := sent + [SelectAid];
    if Received(card(s1)).1 != SwOk then (s1, Reject)
    else
      var (s2, icc) := Challenge(card, s1);
      if icc.None? then (s2, Reject)
      else
        var rndIcc := icc.value;
        var eifd := TripleDesCbcEncrypt(p, kEnc16, ZeroBlock, rndIfd + rndIcc + kIfd16);
        var mac8 := RetailMac(p, kMac16, eifd);
        var (s3, kIcc) := Authenticate(p, kEnc16, kMac16, rndIcc, rndIfd, card, s2, eifd, mac8);
        (s3, if kIcc.Pass? then Pass((rndIcc, kIcc.value)) else if kIcc.Reject? then Reject else Abort)
  }

  /**
   * `DidDetectTags` after the tag is connected: the handshake, then secure messaging with the
   * session keys and the counter RND.ICC[4..8) || RND.IFD[4..8), and reading EF.COM. `Pass`
   * carries the bytes handed to `OnFileRead`; `Reject` ends the session with nothing delivered,
   * `Abort` is an exception caught there.
   */
  function Session(p: Primitives, kEnc16: Bytes, kMac16: Bytes, card: Card, sent: seq<Command>,
                   rndIfd: Bytes, kIfd16: Bytes): (r: (seq<Command>, Outcome<Bytes>))
    requires |kEnc16| == 16 && |kMac16| == 16 && |rndIfd| == 8 && |kIfd16| == 16
    ensures var h := Handshake(p, kEnc16, kMac16, card, sent, rndIfd, kIfd16);
      && (!h.1.Pass? ==> r.0 == h.0 && r.1 == (if h.1.Reject? then Reject else Abort))
      && (r.1.Pass? ==> h.1.Pass?)
  {
    var (s3, h) := Handshake(p, kEnc16, kMac16, card, sent, rndIfd, kIfd16);
    if h.Reject? then (s3, Reject)
    else if h.Abort? then (s3, Abort)
    else
      var (rndIcc, kIcc) := h.value;
      var k: SmKeys := SessionKeys(p, SessionKey(p, rndIfd, rndIcc, kIfd16, kIcc, 1),
                                   SessionKey(p, rndIfd, rndIcc, kIfd16, kIcc, 2));
      var (w, r) := ReadLds(SessionExchanges(k, card), card, Link(s3, InitialSsc(rndIfd, rndIcc), []));
      (w.sent, r)
  }
}

=== FILE: mrz.dfy ===
/**
 * Reading the TD1 machine-readable zone (three 30-character lines on an ID card) and deriving
 * the BAC key seed and keys from the 24-character `mrzInfo` assembled from it.
 */
module Mrz {
  import opened Wrappers
  import opened Octets
  import opened Crypto

  /** .NET's `char.IsWhiteSpace`: the space separators, U+0009 to U+000D, U+0085 and the line and paragraph separators. */
  predicate IsWhiteSpace(c: char)
  {
    || c == ' ' || ('\t' <= c <= '\r') || c == '\U{85}' || c == '\U{A0}' || c == '\U{1680}'
    || ('\U{2000}' <= c <= '\U{200A}') || c == '\U{2028}' || c == '\U{2029}' || c == '\U{202F}'
    || c == '\U{205F}' || c == '\U{3000}'
  }

  /** `string.IsNullOrWhiteSpace`: a missing line, or one made only of white space. */
  predicate IsNullOrWhiteSpace(s: Option<string>)
  {
    s.None? || forall i :: 0 <= i < |s.value| ==> IsWhiteSpace(s.value[i])
  }

  function TrimStart(s: string): (r: string)
    ensures r == [] || !IsWhiteSpace(r[0])
    ensures |r| <= |s|
  {
    if s != [] && IsWhiteSpace(s[0]) then TrimStart(s[1..]) else s
  }

  function TrimEnd(s: string): (r: string)
    ensures r == [] || !IsWhiteSpace(r[|r| - 1])
    ensures r <= s
  {
    if s != [] && IsWhiteSpace(s[|s| - 1]) then TrimEnd(s[..|s| - 1]) else s
  }

  /** `string.Trim()`: white space removed from both ends. */
  function Trim(s: string): string
  {
    TrimEnd(TrimStart(s))
  }

  function UpperChar(c: char): char
  {
    if 'a' <= c <= 'z' then (c as int - 32) as char else c
  }

  /** `ToUpperInvariant`, on the ASCII letters. */
  function ToUpperInvariant(s: string): (r: string)
    ensures |r| == |s|
  {
    seq(|s|, i requires 0 <= i < |s| => UpperChar(s[i]))
  }

  /** `char.IsDigit`, on the ASCII digits. */
  predicate IsDigit(c: char)
  {
    '0' <= c <= '9'
  }

  /** The six fields `TryParseTD1FromLines` hands back through its `out` parameters. */
  datatype Td1 = Td1(docNo: string, docCd: char, dob: string, dobCd: char, exp: string, expCd: char)

  /**
   * `TryParseTD1FromLines`: both first lines present and not blank, at least 15 characters once
   * trimmed, and the three check digits digits. The third line is not read.
   */
  function TryParseTD1FromLines(l1: Option<string>, l2: Option<string>, l3: Option<string>): (r: Option<Td1>)
    ensures IsNullOrWhiteSpace(l1) || IsNullOrWhiteSpace(l2) ==> r == None
    ensures !IsNullOrWhiteSpace(l1) && !IsNullOrWhiteSpace(l2) && (|Trim(l1.value)| < 15 || |Trim(l2.value)| < 15) ==> r == None
    ensures r.Some? <==>
      && !IsNullOrWhiteSpace(l1) && !IsNullOrWhiteSpace(l2)
      && |Trim(l1.value)| >= 15 && |Trim(l2.value)| >= 15
      && IsDigit(UpperChar(Trim(l1.value)[14]))
      && IsDigit(UpperChar(Trim(l2.value)[6])) && IsDigit(UpperChar(Trim(l2.value)[14]))
    ensures r.Some? ==> (
      && l1.Some? && l2.Some?
      && var a := ToUpperInvariant(Trim(l1.value));
         var b := ToUpperInvariant(Trim(l2.value));
         |a| >= 15 && |b| >= 15 && r.value == Td1(a[5..14], a[14], b[..6], b[6], b[8..14], b[14]))
    ensures r.Some? ==> |r.value.docNo| == 9 && |r.value.dob| == 6 && |r.value.exp| == 6
    ensures r.Some? ==> IsDigit(r.value.docCd) && IsDigit(r.value.dobCd) && IsDigit(r.value.expCd)
    ensures r.Some? ==> |MrzInfo(r.value)| == 24
  {
    if IsNullOrWhiteSpace(l1) || IsNullOrWhiteSpace(l2) then None
    else
      var a := ToUpperInvariant(Trim(l1.value));
      var b := ToUpperInvariant(Trim(l2.value));
      if |a| < 15 || |b| < 15 then None
      else
        var f := Td1(a[5..14], a[14], b[..6], b[6], b[8..14], b[14]);
        if IsDigit(f.docCd) && IsDigit(f.dobCd) && IsDigit(f.expCd) then Some(f) else None
  }

  /** The `mrzInfo` string of `StartSession`: document number, birth date and expiry date, each with its check digit. */
  function MrzInfo(f: Td1): (r: string)
    ensures |r| == |f.docNo| + |f.dob| + |f.exp| + 3
    ensures r[..|f.docNo|] == f.docNo && r[|f.docNo|] == f.docCd
    ensures var n, d := |f.docNo|, |f.dob|;
      && r[n + 1..n + 1 + d] == f.dob && r[n + 1 + d] == f.dobCd
      && r[n + 2 + d..|r| - 1] == f.exp && r[|r| - 1] == f.expCd
  {
    f.docNo + [f.docCd] + f.dob + [f.dobCd] + f.exp + [f.expCd]
  }

  /** A line as the scanner delivers it: upper case, no white space at either end. */
  predicate Canonical(l: string)
  {
    && (l == [] || (!IsWhiteSpace(l[0]) && !IsWhiteSpace(l[|l| - 1])))
    && forall i :: 0 <= i < |l| ==> UpperChar(l[i]) == l[i]
  }

  /** The first two TD1 lines holding `f`, with `pre`, `sex` and the tails as the other fields. */
  function Td1Lines(f: Td1, pre: string, sex: char, tail1: string, tail2: string): (string, string)
  {
    (pre + f.docNo + [f.docCd] + tail1, f.dob + [f.dobCd] + [sex] + f.exp + [f.expCd] + tail2)
  }

  /** Every character of `s` is white space. */
  predicate AllWhiteSpace(s: string)
  {
    forall i :: 0 <= i < |s| ==> IsWhiteSpace(s[i])
  }

  /** `TrimStart` drops exactly the white space in front of a string that starts with something else. */
  lemma {:induction false} TrimStartPadded(ws: string, x: string)
    requires AllWhiteSpace(ws) && x != [] && !IsWhiteSpace(x[0])
    ensures TrimStart(ws + x) == x
    decreases |ws|
  {
    if ws == [] {
      assert ws + x == x;
    } else {
      assert (ws + x)[1..] == ws[1..] + x;
      TrimStartPadded(ws[1..], x);
    }
  }

  /** `TrimEnd` drops exactly the white space after a string that ends with something else. */
  lemma {:induction false} TrimEndPadded(x: string, ws: string)
    requires AllWhiteSpace(ws) && x != [] && !IsWhiteSpace(x[|x| - 1])
    ensures TrimEnd(x + ws) == x
    decreases |ws|
  {
    if ws == [] {
      assert x + ws == x;
    } else {
      var n := |x + ws|;
      assert (x + ws)[..n - 1] == x + ws[..|ws| - 1];
      TrimEndPadded(x, ws[..|ws| - 1]);
    }
  }

  /** Trimming a string padded with white space on both sides gives the string back. */
  lemma TrimPadded(ws1: string, x: string, ws2: string)
    requires AllWhiteSpace(ws1) && AllWhiteSpace(ws2)
    requires x != [] && !IsWhiteSpace(x[0]) && !IsWhiteSpace(x[|x| - 1])
    ensures Trim(ws1 + x + ws2) == x
  {
    assert ws1 + x + ws2 == ws1 + (x + ws2);
    TrimStartPadded(ws1, x + ws2);
    TrimEndPadded(x, ws2);
  }

  /**
   * Lines written from well-formed fields parse back to exactly those fields, whatever white
   * space surrounds them and in whatever letter case they were typed.
   */
  lemma ParseTd1Lines(f: Td1, pre: string, sex: char, tail1: string, tail2: string,
                      x1: string, x2: string, ws1: string, ws2: string, ws3: string, ws4: string, l3: Option<string>)
    requires |f.docNo| == 9 && |f.dob| == 6 && |f.exp| == 6 && |pre| == 5
    requires IsDigit(f.docCd) && IsDigit(f.dobCd) && IsDigit(f.expCd)
    requires Canonical(Td1Lines(f, pre, sex, tail1, tail2).0)
    requires Canonical(Td1Lines(f, pre, sex, tail1, tail2).1)
    requires ToUpperInvariant(x1) == Td1Lines(f, pre, sex, tail1, tail2).0
    requires ToUpperInvariant(x2) == Td1Lines(f, pre, sex, tail1, tail2).1
    requires AllWhiteSpace(ws1) && AllWhiteSpace(ws2) && AllWhiteSpace(ws3) && AllWhiteSpace(ws4)
    ensures TryParseTD1FromLines(Some(ws1 + x1 + ws2), Some(ws3 + x2 + ws4), l3) == Some(f)
  {
    var (c1, c2) := Td1Lines(f, pre, sex, tail1, tail2);
    assert UpperChar(x1[0]) == c1[0] && UpperChar(x1[|x1| - 1]) == c1[|c1| - 1];
    assert UpperChar(x2[0]) == c2[0] && UpperChar(x2[|x2| - 1]) == c2[|c2| - 1];
    TrimPadded(ws1, x1, ws2);
    TrimPadded(ws3, x2, ws4);
    assert (ws1 + x1 + ws2)[|ws1|] == x1[0];
    assert (ws3 + x2 + ws4)[|ws3|] == x2[0];
    assert c1[5..14] == f.docNo && c1[14] == f.docCd;
    assert c2[..6] == f.dob && c2[6] == f.dobCd && c2[8..14] == f.exp && c2[14] == f.expCd;
  }

  lemma CanonicalTrimUpper(l: string)
    requires Canonical(l)
    ensures ToUpperInvariant(Trim(l)) == l
  {
  }

  /** `Encoding.ASCII.GetBytes`: characters above U+007F become '?'. */
  function AsciiBytes(s: string): (r: Bytes)
    ensures |r| == |s|
    ensures forall i :: 0 <= i < |s| ==> r[i] < 0x80
    ensures forall i :: 0 <= i < |s| ==>
      (s[i] as int < 0x80 ==> r[i] as int == s[i] as int) && (s[i] as int >= 0x80 ==> r[i] == 0x3F)
  {
    seq(|s|, i requires 0 <= i < |s| => if s[i] as int < 0x80 then s[i] as int as byte else 0x3F)
  }

  /** The three values `DeriveBacKeysFromMrzInfo` stores. */
  datatype BacKeys = BacKeys(kSeed16: Bytes, kEnc16: Bytes, kMac16: Bytes)

  /**
   * `DeriveBacKeysFromMrzInfo`: K_seed is the first 16 bytes of SHA-1 of the ASCII `mrzInfo`;
   * K_enc and K_mac are `Kdf16` of it with counters 1 and 2, parity-fixed.
   */
  function BacKeysFromMrzInfo(p: Primitives, mrzInfo: string): (r: BacKeys)
    ensures |r.kSeed16| == 16 && |r.kEnc16| == 16 && |r.kMac16| == 16
    ensures forall i :: 0 <= i < 16 ==> OddParity(r.kEnc16[i]) && OddParity(r.kMac16[i])
    ensures r.kSeed16 == p.sha1(AsciiBytes(mrzInfo))[..16]
    ensures r.kEnc16 == ParityFixed(Kdf16(p, r.kSeed16, 1)) && r.kMac16 == ParityFixed(Kdf16(p, r.kSeed16, 2))
  {
    var seed := p.sha1(AsciiBytes(mrzInfo))[..16];
    BacKeys(seed, ParityFixed(Kdf16(p, seed, 1)), ParityFixed(Kdf16(p, seed, 2)))
  }

  /** A string of ASCII characters is the string its bytes decode back to: distinct ASCII MRZs give distinct bytes. */
  lemma AsciiBytesInjective(s: string, t: string)
    requires forall i :: 0 <= i < |s| ==> s[i] as int < 0x80
    requires forall i :: 0 <= i < |t| ==> t[i] as int < 0x80
    requires AsciiBytes(s) == AsciiBytes(t)
    ensures s == t
  {
    assert |s| == |t|;
    forall i | 0 <= i < |s|
      ensures s[i] == t[i]
    {
      assert AsciiBytes(s)[i] == AsciiBytes(t)[i];
    }
  }

  /**
   * K_enc and K_mac are SHA-1 of the seed followed by the 32-bit big-endian counter 00 00 00 01 and
   * 00 00 00 02, first 16 bytes, parity-fixed: the same derivation as the session keys.
   */
  lemma BacKeysAreCounterKdf(p: Primitives, mrzInfo: string)
    ensures var r := BacKeysFromMrzInfo(p, mrzInfo);
      && r.kEnc16 == ParityFixed(p.sha1(r.kSeed16 + [0, 0, 0, 1])[..16])
      && r.kMac16 == ParityFixed(p.sha1(r.kSeed16 + [0, 0, 0, 2])[..16])
  {
    assert Be32(1) == [0, 0, 0, 1];
    assert Be32(2) == [0, 0, 0, 2];
  }
}

=== FILE: octets.dfy ===
/** Bytes, byte strings and the big-endian integers the protocol writes into them. */
module Octets {

  /** An unsigned 8-bit value, like C#'s `byte`. */
  newtype byte = x: int | 0 <= x < 256

  type Bytes = seq<byte>

  /** `n` zero bytes: the contents of a freshly allocated C# `byte[n]`. */
  function Zeros(n: nat): (r: Bytes)
    ensures |r| == n
    ensures forall i :: 0 <= i < n ==> r[i] == 0
  {
    seq(n, _ => 0)
  }

  function Pow256(n: nat): (r: nat)
    ensures r > 0
  {
    if n == 0 then 1 else 256 * Pow256(n - 1)
  }

  /** The unsigned big-endian value of a byte string. */
  function BeValue(s: Bytes): (r: nat)
    ensures r < Pow256(|s|)
  {
    if s == [] then 0
    else
      var high := BeValue(s[..|s| - 1]);
      assert high * 256 <= (Pow256(|s| - 1) - 1) * 256;
      high * 256 + s[|s| - 1] as nat
  }

  /** `counter` as four big-endian bytes, `(byte)(counter >> 24)` first and `(byte)counter` last. */
  function Be32(counter: nat): (r: Bytes)
    requires counter < 0x1_0000_0000
    ensures |r| == 4 && BeValue(r) == counter
  {
    var q1 := counter / 256;
    var q2 := q1 / 256;
    var q3 := q2 / 256;
    var r := [q3 as byte, (q2 % 256) as byte, (q1 % 256) as byte, (counter % 256) as byte];
    assert r[..1] == [q3 as byte] && BeValue([q3 as byte]) == q3 by { assert [q3 as byte][..0] == []; }
    assert BeValue(r[..2]) == q2 by { assert r[..2][..1] == r[..1]; }
    assert BeValue(r[..3]) == q1 by { assert r[..3][..2] == r[..2]; }
    assert r[..4][..3] == r[..3];
    r
  }

  /** The concatenation of `parts` in order: the source's `Concat(params byte[][])`. */
  function Concat(parts: seq<Bytes>): (r: Bytes)
  {
    if parts == [] then [] else parts[0] + Concat(parts[1..])
  }

  /** Concatenating two lists of parts is concatenating their concatenations. */
  lemma {:induction false} ConcatAppend(a: seq<Bytes>, b: seq<Bytes>)
    ensures Concat(a + b) == Concat(a) + Concat(b)
  {
    if a != [] {
      assert (a + b)[1..] == a[1..] + b;
      ConcatAppend(a[1..], b);
    } else {
      assert a + b == b;
    }
  }

  /** Concatenation of byte strings is associative. */
  lemma AppendAssoc(a: Bytes, b: Bytes, c: Bytes)
    ensures a + b + c == a + (b + c)
  {
  }

  /** A one-part list holding `b` when it is non-empty and nothing otherwise: the source's conditional `Add`. */
  function IfPresent(b: Bytes): (r: seq<Bytes>)
    ensures Concat(r) == b
  {
    if |b| > 0 then (assert [b][1..] == []; [b]) else []
  }

  /** Leaving an empty part out of a list does not change its concatenation. */
  lemma ConcatIfPresent(a: seq<Bytes>, b: Bytes, c: seq<Bytes>)
    ensures Concat(a + IfPresent(b) + c) == Concat(a) + b + Concat(c)
  {
    ConcatAppend(a + IfPresent(b), c);
    ConcatAppend(a, IfPresent(b));
  }

  /** The concatenations of up to four parts, spelled out. */
  lemma ConcatSmall(a: Bytes, b: Bytes, c: Bytes, d: Bytes)
    ensures Concat([a]) == a
    ensures Concat([a, b]) == a + b
    ensures Concat([a, b, c]) == a + b + c
    ensures Concat([a, b, c, d]) == a + b + c + d
  {
    assert [a][1..] == [] && [b][1..] == [] && [c][1..] == [] && [d][1..] == [];
    assert [c, d][1..] == [d] && [a, b][1..] == [b];
    assert [b, c, d][1..] == [c, d] && [a, b, c][1..] == [b, c];
    assert [a, b, c, d][1..] == [b, c, d];
    assert Concat([b]) == b && Concat([c]) == c && Concat([d]) == d;
    assert Concat([c, d]) == c + d;
    assert Concat([b, c, d]) == b + c + d;
  }

  /** Bitwise exclusive or of two values below `2^k`, bit by bit from the lowest. */
  function XorBits(a: nat, b: nat): nat
    decreases a + b
  {
    if a == 0 && b == 0 then 0 else (if a % 2 == b % 2 then 0 else 1) + 2 * XorBits(a / 2, b / 2)
  }

  lemma {:induction false} XorBitsBound(a: nat, b: nat, k: nat)
    requires a < Pow2(k) && b < Pow2(k)
    ensures XorBits(a, b) < Pow2(k)
    decreases a + b
  {
    if !(a == 0 && b == 0) {
      XorBitsBound(a / 2, b / 2, k - 1);
    }
  }

  lemma {:induction false} XorBitsCancels(a: nat, b: nat)
    ensures XorBits(XorBits(a, b), b) == a
    decreases a + b
  {
    if !(a == 0 && b == 0) {
      var y := XorBits(a / 2, b / 2);
      var x := XorBits(a, b);
      assert x / 2 == y && x % 2 == (if a % 2 == b % 2 then 0 else 1);
      XorBitsCancels(a / 2, b / 2);
      if !(x == 0 && b == 0) {
        assert XorBits(x, b) == (if x % 2 == b % 2 then 0 else 1) + 2 * XorBits(y, b / 2);
      }
    }
  }

  function Pow2(k: nat): (r: nat)
    ensures r > 0
  {
    if k == 0 then 1 else 2 * Pow2(k - 1)
  }

  /** Bitwise exclusive or of two bytes, C#'s `a ^ b`. */
  function XorByte(a: byte, b: byte): byte
  {
    XorBitsBound(a as nat, b as nat, 8);
    XorBits(a as nat, b as nat) as byte
  }

  lemma {:induction false} XorBitsZero(a: nat)
    ensures XorBits(a, 0) == a
    decreases a
  {
    if a != 0 {
      XorBitsZero(a / 2);
    }
  }

  /** `b ^ 0x01` flips the lowest bit. */
  lemma XorOne(b: byte)
    ensures XorByte(b, 1) == if b % 2 == 0 then b + 1 else b - 1
  {
    XorBitsZero(b as nat / 2);
    assert XorBits(b as nat, 1) == (if b % 2 == 1 then 0 else 1) + 2 * XorBits(b as nat / 2, 0);
  }

  lemma XorByteCancels(a: byte, b: byte)
    ensures XorByte(XorByte(a, b), b) == a
  {
    XorBitsCancels(a as nat, b as nat);
  }

  lemma MultipleMod(k: nat, block: nat)
    requires block > 0
    ensures (k * block) % block == 0
  {
    ModUnique(k * block, block, k, 0);
  }

  /** Euclidean division has one quotient and one remainder. */
  lemma ModUnique(x: int, b: int, q: int, r: int)
    requires b > 0 && x == q * b + r && 0 <= r < b
    ensures x % b == r
  {
    var q0, r0 := x / b, x % b;
    assert x == q0 * b + r0;
    assert (q - q0) * b == r0 - r;
    if q - q0 >= 1 {
      assert false;
    } else if q - q0 <= -1 {
      assert false;
    }
  }

  /** Adding `b` commutes with reduction modulo `m`. */
  lemma AddMod(a: nat, b: nat, m: nat)
    requires m > 0
    ensures ((a % m) + b) % m == (a + b) % m
  {
    var q, r := a / m, a % m;
    var q2, r2 := (r + b) / m, (r + b) % m;
    assert a + b == (q + q2) * m + r2;
    ModUnique(a + b, m, q + q2, r2);
  }

  /** Adding one commutes with reduction modulo `m`. */
  lemma AddOneMod(a: nat, m: nat)
    requires m > 0
    ensures ((a % m) + 1) % m == (a + 1) % m
  {
    var q, r := a / m, a % m;
    assert a == q * m + r;
    if r + 1 < m {
      ModUnique(a + 1, m, q, r + 1);
      ModUnique(r + 1, m, 0, r + 1);
    } else {
      assert a + 1 == (q + 1) * m;
      ModUnique(a + 1, m, q + 1, 0);
      ModUnique(r + 1, m, 1, 0);
    }
  }
}

=== FILE: secure_messaging.dfy ===
/**
 * Secure messaging after BAC: the session keys and send sequence counter set up by `InitSM`, the
 * protection of a command (DO87 encrypted data, DO97 expected length, DO8E MAC) and the check of
 * a protected response (DO99 status, DO8E MAC, DO87 decryption).
 */
module SecureMessaging {
  import opened Wrappers
  import opened Octets
  import opened Crypto
  import opened Tlv
  import opened Apdu

  // ---------------------------------------------------------------- send sequence counter

  /** A big-endian counter plus one, carrying from the last byte: all 0xFF wraps to all zero. */
  function Incremented(s: Bytes): (r: Bytes)
    ensures |r| == |s|
    ensures s != [] ==> r[|s| - 1] as int == (s[|s| - 1] as int + 1) % 256
  {
    if s == [] then []
    else if s[|s| - 1] == 0xFF then Incremented(s[..|s| - 1]) + [0]
    else s[..|s| - 1] + [s[|s| - 1] + 1]
  }

  /** A carry out of the last byte: the value of the higher bytes plus one, shifted by a byte. */
  lemma CarryMod(v: nat, m: nat, w: nat)
    requires v < m && w == (v + 1) % m
    ensures w * 256 == ((v + 1) * 256) % (m * 256)
  {
    if v + 1 < m {
      ModUnique(v + 1, m, 0, v + 1);
      ModUnique((v + 1) * 256, m * 256, 0, (v + 1) * 256);
    } else {
      ModUnique(v + 1, m, 1, 0);
      ModUnique((v + 1) * 256, m * 256, 1, 0);
    }
  }

  /** The carry rule is addition of one modulo 256^n. */
  lemma {:induction false} IncrementedValue(s: Bytes)
    ensures BeValue(Incremented(s)) == (BeValue(s) + 1) % Pow256(|s|)
  {
    if s == [] {
      ModUnique(1, 1, 1, 0);
    } else {
      var n := |s|;
      var pre, last := s[..n - 1], s[n - 1];
      var m := Pow256(n - 1);
      assert BeValue(s) == BeValue(pre) * 256 + last as nat;
      assert Pow256(n) == m * 256;
      var t := Incremented(s);
      var v := BeValue(pre);
      if last == 0xFF {
        IncrementedValue(pre);
        var w := BeValue(Incremented(pre));
        assert t[..n - 1] == Incremented(pre) && t[n - 1] == 0;
        assert BeValue(t) == w * 256;
        assert BeValue(s) + 1 == (v + 1) * 256;
        CarryMod(v, m, w);
      } else {
        assert t[..n - 1] == pre;
        assert BeValue(t) == BeValue(s) + 1;
        ModUnique(BeValue(s) + 1, m * 256, 0, BeValue(s) + 1);
      }
    }
  }

  /** Two increments, one per half of a protected exchange, advance the counter by two. */
  lemma {:induction false} TwoIncrements(s: Bytes)
    ensures BeValue(Incremented(Incremented(s))) == (BeValue(s) + 2) % Pow256(|s|)
  {
    var m := Pow256(|s|);
    var once := Incremented(s);
    IncrementedValue(s);
    assert BeValue(once) == (BeValue(s) + 1) % m;
    IncrementedValue(once);
    assert BeValue(Incremented(once)) == (BeValue(once) + 1) % m;
    var a := BeValue(s) + 1;
    AddOneMod(a, m);
    assert ((a % m) + 1) % m == (a + 1) % m;
  }

  /** The counter after `n` increments. */
  function IncrementedTimes(s: Bytes, n: nat): (r: Bytes)
    ensures |r| == |s|
    decreases n
  {
    if n == 0 then s else IncrementedTimes(Incremented(s), n - 1)
  }

  /** Two increments, spelled out. */
  lemma IncrementedTwice(s: Bytes)
    ensures IncrementedTimes(s, 2) == Incremented(Incremented(s))
  {
    assert IncrementedTimes(s, 2) == IncrementedTimes(Incremented(s), 1);
    assert IncrementedTimes(Incremented(s), 1) == IncrementedTimes(Incremented(Incremented(s)), 0);
  }

  /** Increments add up. */
  lemma {:induction false} IncrementedTimesAdd(s: Bytes, a: nat, b: nat)
    ensures IncrementedTimes(IncrementedTimes(s, a), b) == IncrementedTimes(s, a + b)
    decreases a
  {
    if a > 0 {
      IncrementedTimesAdd(Incremented(s), a - 1, b);
    }
  }

  /** One more increment after `n`. */
  lemma {:induction false} IncrementedTimesLast(s: Bytes, n: nat)
    ensures IncrementedTimes(s, n + 1) == Incremented(IncrementedTimes(s, n))
    decreases n
  {
    if n > 0 {
      IncrementedTimesLast(Incremented(s), n - 1);
    }
  }

  /** `n` increments add `n` modulo 256^|s|. */
  lemma {:induction false} IncrementedTimesValue(s: Bytes, n: nat)
    ensures BeValue(IncrementedTimes(s, n)) == (BeValue(s) + n) % Pow256(|s|)
    decreases n
  {
    var m := Pow256(|s|);
    if n == 0 {
      ModUnique(BeValue(s), m, 0, BeValue(s));
    } else {
      IncrementedTimesValue(s, n - 1);
      IncrementedTimesLast(s, n - 1);
      IncrementedValue(IncrementedTimes(s, n - 1));
      AddMod(BeValue(s) + (n - 1), 1, m);
    }
  }

  // ---------------------------------------------------------------- session keys

  /** The counter `InitSM` starts from: RND.ICC[4..8) followed by RND.IFD[4..8). */
  function InitialSsc(rndIfd: Bytes, rndIcc: Bytes): Block
    requires |rndIfd| == 8 && |rndIcc| == 8
  {
    rndIcc[4..] + rndIfd[4..]
  }

  /** The SM seed: the first 16 bytes of SHA-1(RND.IFD || RND.ICC || K.IFD || K.ICC). */
  function SessionSeed(p: Primitives, rndIfd: Bytes, rndIcc: Bytes, kIfd16: Bytes, kIcc16: Bytes): (r: Bytes)
    ensures |r| == 16
  {
    p.sha1(rndIfd + rndIcc + kIfd16 + kIcc16)[..16]
  }

  /**
   * Session key number `n` (1 for KS_enc, 2 for KS_mac): SHA-1 of the seed followed by 00 00 00 n,
   * first 16 bytes, parity-fixed.
   */
  function SessionKey(p: Primitives, rndIfd: Bytes, rndIcc: Bytes, kIfd16: Bytes, kIcc16: Bytes, n: byte): (r: Bytes)
    ensures |r| == 16
    ensures forall i :: 0 <= i < 16 ==> OddParity(r[i])
  {
    ParityFixed(p.sha1(SessionSeed(p, rndIfd, rndIcc, kIfd16, kIcc16) + [0, 0, 0, n])[..16])
  }

  /** The session keys are derived by the same counter KDF as the BAC keys. */
  lemma SessionKeyIsKdf(p: Primitives, rndIfd: Bytes, rndIcc: Bytes, kIfd16: Bytes, kIcc16: Bytes, n: byte)
    ensures SessionKey(p, rndIfd, rndIcc, kIfd16, kIcc16, n)
         == ParityFixed(Kdf16(p, SessionSeed(p, rndIfd, rndIcc, kIfd16, kIcc16), n as nat))
  {
    assert Be32(n as nat) == [0, 0, 0, n];
  }

  // ---------------------------------------------------------------- data objects

  /** The class byte of a protected command: `cla | 0x0C`, bits 2 and 3 set and the others kept. */
  function SmClass(cla: byte): (r: byte)
    ensures r / 16 == cla / 16 && r % 4 == cla % 4 && r % 16 / 4 == 3
  {
    (cla / 16 * 16 + 12 + cla % 4) as byte
  }

  /** An optional data object: nothing when absent. */
  function OptTl(tag: byte, v: Option<Bytes>): Bytes
  {
    if v.Some? then Tl(tag, v.value) else []
  }

  /**
   * `BuildDo87`: nothing for no data; otherwise tag 0x87 around the padding-content indicator 01
   * and the padded data encrypted with KS_enc in CBC mode, the counter serving as IV.
   */
  function BuildDo87(p: Primitives, ksEnc16: Bytes, ssc: Block, plain: Bytes): (r: Bytes)
    requires |ksEnc16| == 16
    ensures plain == [] <==> r == []
  {
    if plain == [] then []
    else Tl(0x87, [0x01] + TripleDesCbcEncrypt(p, ksEnc16, ssc, PadM2(plain)))
  }

  /** A peer holding KS_enc and the counter recovers the data from a DO87. */
  lemma BuildDo87Opens(p: Primitives, ksEnc16: Bytes, ssc: Block, plain: Bytes)
    requires DesInverts(p) && |ksEnc16| == 16
    requires plain != [] && |plain| <= 0xFF00
    ensures var v := TlvFind(BuildDo87(p, ksEnc16, ssc, plain), 0x87);
      v.Some? && |v.value| >= 1 && v.value[0] == 0x01 && |v.value[1..]| % 8 == 0 &&
      Unpadded(TripleDesCbcDecrypt(p, ksEnc16, ssc, v.value[1..])) == plain
  {
    var enc := TripleDesCbcEncrypt(p, ksEnc16, ssc, PadM2(plain));
    var val := [0x01] + enc;
    TlvFindOfTl(0x87, val, []);
    assert Tl(0x87, val) + [] == Tl(0x87, val);
    assert val[1..] == enc;
    TripleDesRoundTrip(p, ksEnc16, ssc, PadM2(plain));
    UnpadAfterPad(plain, 8);
  }

  /** The single byte DO97 carries for an expected length: 1 to 255 as itself, anything else as 00 (256). */
  function Do97Byte(le: int): byte
  {
    if 1 <= le <= 0xFF then le as byte else 0
  }

  /** `BuildDo97`: no object for a negative length, otherwise a 3-byte DO97 a peer reads back as `Do97Byte`. */
  function BuildDo97(le: int): (r: Bytes)
    ensures le < 0 <==> r == []
    ensures le >= 0 ==> |r| == 3 && TlvFind(r, 0x97) == Some([Do97Byte(le)])
  {
    if le < 0 then []
    else
      var r := if le == 0 || le > 0xFF then Tl(0x97, [0x00]) else Tl(0x97, [le as byte]);
      TlvFindOfTl(0x97, [Do97Byte(le)], []);
      assert r + [] == r;
      r
  }

  /**
   * `BuildDo8E`: the DO8E holding the retail MAC, under KS_mac, of the counter, the 4-byte command
   * header and whichever of DO87 and DO97 are present.
   */
  function BuildDo8E(p: Primitives, ksMac16: Bytes, ssc: Block, headerMac: Bytes, do87: Bytes, do97: Bytes): (r: Bytes)
    requires |ksMac16| == 16
    ensures r == Tl(0x8E, RetailMac(p, ksMac16, ssc + headerMac + do87 + do97))
  {
    var head := [ssc, headerMac];
    var parts := head + IfPresent(do87) + IfPresent(do97);
    ConcatIfPresent(head + IfPresent(do87), do97, []);
    ConcatIfPresent(head, do87, []);
    assert parts + [] == parts;
    assert head + IfPresent(do87) + [] == head + IfPresent(do87);
    assert Concat([]) == [];
    ConcatSmall(ssc, headerMac, [], []);
    assert Concat(parts) == ssc + headerMac + do87 + do97;
    Tl(0x8E, RetailMac(p, ksMac16, Concat(parts)))
  }

  /**
   * The protected form of a command under the given keys and (already incremented) counter: class
   * `cla | 0x0C`, the same INS P1 P2, body [DO87] || [DO97] || DO8E and no Le field.
   */
  function ProtectCommand(p: Primitives, ksEnc16: Bytes, ksMac16: Bytes, ssc: Block,
                          cla: byte, ins: byte, p1: byte, p2: byte, data: Bytes, le: Option<int>): (r: Command)
    requires |ksEnc16| == 16 && |ksMac16| == 16
    ensures r.cla == SmClass(cla) && r.ins == ins && r.p1 == p1 && r.p2 == p2 && r.le == -1
  {
    var do87 := BuildDo87(p, ksEnc16, ssc, data);
    var do97 := if le.Some? then BuildDo97(le.value) else [];
    var header := [SmClass(cla), ins, p1, p2];
    Command(SmClass(cla), ins, p1, p2, do87 + do97 + BuildDo8E(p, ksMac16, ssc, header, do87, do97), -1)
  }

  /** A READ BINARY protected with no data carries DO97 and DO8E only. */
  lemma ReadBinaryProtected(p: Primitives, ksEnc16: Bytes, ksMac16: Bytes, ssc: Block, cla: byte, p1: byte, p2: byte, le: int)
    requires |ksEnc16| == 16 && |ksMac16| == 16 && le >= 0
    ensures var do97 := BuildDo97(le);
      Command(SmClass(cla), 0xB0, p1, p2, Concat([do97, BuildDo8E(p, ksMac16, ssc, [SmClass(cla), 0xB0, p1, p2], [], do97)]), -1)
        == ProtectCommand(p, ksEnc16, ksMac16, ssc, cla, 0xB0, p1, p2, [], Some(le))
  {
    var do97 := BuildDo97(le);
    var do8e := BuildDo8E(p, ksMac16, ssc, [SmClass(cla), 0xB0, p1, p2], [], do97);
    ConcatSmall(do97, do8e, [], []);
    assert BuildDo87(p, ksEnc16, ssc, []) == [];
    assert Concat([do97, do8e]) == [] + do97 + do8e;
  }

  /** Finding a tag in a buffer that starts with an optional object. */
  lemma FindAfter(t0: byte, o: Option<Bytes>, rest: Bytes, t: byte)
    requires o.Some? ==> |o.value| <= 0xFFFF
    ensures TlvFind(OptTl(t0, o) + rest, t) == if o.Some? && t == t0 then o else TlvFind(rest, t)
  {
    if o.Some? {
      if t == t0 {
        TlvFindOfTl(t0, o.value, rest);
      } else {
        TlvFindSkips(t0, o.value, rest, t);
      }
    } else {
      assert OptTl(t0, o) + rest == rest;
    }
  }

  /** Two optional objects and a mandatory last one, with three distinct tags, are each found where they are. */
  lemma FindInObjects(t1: byte, x: Option<Bytes>, t2: byte, y: Option<Bytes>, t3: byte, m: Bytes)
    requires t1 != t2 && t1 != t3 && t2 != t3
    requires (x.Some? ==> |x.value| <= 0xFFFF) && (y.Some? ==> |y.value| <= 0xFFFF) && |m| <= 0xFFFF
    ensures var body := OptTl(t1, x) + (OptTl(t2, y) + Tl(t3, m));
      TlvFind(body, t1) == x && TlvFind(body, t2) == y && TlvFind(body, t3) == Some(m)
  {
    var last := Tl(t3, m);
    var tail := OptTl(t2, y) + last;
    assert last == OptTl(t3, Some(m)) + [];
    assert TlvFind([], t1) == None && TlvFind([], t2) == None;
    FindAfter(t3, Some(m), [], t1);
    FindAfter(t3, Some(m), [], t2);
    FindAfter(t3, Some(m), [], t3);
    FindAfter(t2, y, last, t1);
    FindAfter(t2, y, last, t2);
    FindAfter(t2, y, last, t3);
    FindAfter(t1, x, tail, t1);
    FindAfter(t1, x, tail, t2);
    FindAfter(t1, x, tail, t3);
  }

  /**
   * What a card reading a protected command finds in its body: the DO87 that opens to the data
   * (none for no data), the DO97 with the expected length (none when Le is absent or negative),
   * and a DO8E whose MAC covers the counter, the header it received and the objects it parsed.
   * The body is exactly those objects in that order, with nothing else.
   */
  lemma ProtectedCommandOpens(p: Primitives, ksEnc16: Bytes, ksMac16: Bytes, ssc: Block,
                              cla: byte, ins: byte, p1: byte, p2: byte, data: Bytes, le: Option<int>)
    requires DesInverts(p) && |ksEnc16| == 16 && |ksMac16| == 16 && |data| <= 0xFF00
    ensures var r := ProtectCommand(p, ksEnc16, ksMac16, ssc, cla, ins, p1, p2, data, le);
      var f87 := TlvFind(r.data, 0x87);
      var f97 := TlvFind(r.data, 0x97);
      (data == [] <==> f87.None?) &&
      (data != [] ==> |f87.value| >= 1 && f87.value[0] == 0x01 && |f87.value[1..]| % 8 == 0 &&
                      Unpadded(TripleDesCbcDecrypt(p, ksEnc16, ssc, f87.value[1..])) == data) &&
      f97 == (if le.Some? && le.value >= 0 then Some([Do97Byte(le.value)]) else None) &&
      TlvFind(r.data, 0x8E) == Some(RetailMac(p, ksMac16, ssc + [r.cla, r.ins, r.p1, r.p2] + OptTl(0x87, f87) + OptTl(0x97, f97))) &&
      r.data == OptTl(0x87, f87) + OptTl(0x97, f97) +
                Tl(0x8E, RetailMac(p, ksMac16, ssc + [r.cla, r.ins, r.p1, r.p2] + OptTl(0x87, f87) + OptTl(0x97, f97)))
  {
    var r := ProtectCommand(p, ksEnc16, ksMac16, ssc, cla, ins, p1, p2, data, le);
    var do87 := BuildDo87(p, ksEnc16, ssc, data);
    var do97 := if le.Some? then BuildDo97(le.value) else [];
    var header := [SmClass(cla), ins, p1, p2];
    var mac := RetailMac(p, ksMac16, ssc + header + do87 + do97);
    var x: Option<Bytes> := if data == [] then None else Some([0x01] + TripleDesCbcEncrypt(p, ksEnc16, ssc, PadM2(data)));
    var y: Option<Bytes> := if le.Some? && le.value >= 0 then Some([Do97Byte(le.value)]) else None;
    var do8e := Tl(0x8E, mac);
    assert do87 == OptTl(0x87, x);
    assert do97 == OptTl(0x97, y);
    assert r.data == do87 + do97 + do8e;
    AppendAssoc(do87, do97, do8e);
    FindInObjects(0x87, x, 0x97, y, 0x8E, mac);
    if data != [] {
      BuildDo87Opens(p, ksEnc16, ssc, data);
      TlvFindOfTl(0x87, x.value, []);
      assert do87 + [] == do87;
    }
  }

  // ---------------------------------------------------------------- responses

  /** The header the response MAC covers: the cached command header, or 0C B0 00 00 if none of 4 bytes is cached. */
  function ResponseHeader(cached: Bytes): (r: Bytes)
    ensures |r| == 4
    ensures |cached| == 4 ==> r == cached
  {
    if |cached| == 4 then cached else [0x0C, 0xB0, 0x00, 0x00]
  }

  /** The DO99 of a successful command: status 90 00. */
  const Do99Ok: Bytes := Tl(0x99, [0x90, 0x00])

  /**
   * The check `ParseSmResponse` makes after incrementing the counter to `ssc`: an empty body with
   * status 9000 passes with no data; otherwise DO99 must be 90 00, DO8E must be 8 bytes and equal the
   * MAC over the counter, the cached header, the re-encoded DO87 if found and the DO99; a DO87 must
   * start with 01, and its ciphertext is decrypted and unpadded. A ciphertext that is not a whole
   * number of blocks makes the decryption throw.
   */
  function UnprotectResponse(p: Primitives, ksEnc16: Bytes, ksMac16: Bytes, ssc: Block,
                             cached: Bytes, resp: Bytes, sw: int): (r: Outcome<Bytes>)
    requires |ksEnc16| == 16 && |ksMac16| == 16
    ensures resp == [] ==> r == (if sw == SwOk then Pass([]) else Reject)
    ensures resp != [] && TlvFind(resp, 0x99) != Some([0x90, 0x00]) ==> r == Reject
  {
    var do99 := TlvFind(resp, 0x99);
    var do8e := TlvFind(resp, 0x8E);
    var do87 := TlvFind(resp, 0x87);
    if sw == SwOk && resp == [] then Pass([])
    else if do99 != Some([0x90, 0x00]) then Reject
    else if do8e.None? || |do8e.value| != 8 then Reject
    else if RetailMac(p, ksMac16, ssc + ResponseHeader(cached) + OptTl(0x87, do87) + Do99Ok) != do8e.value then Reject
    else OpenDo87(p, ksEnc16, ssc, if do87.Some? then do87.value else [])
  }

  /**
   * The last step of the response check, on the DO87 value (empty when there is none): no data for
   * an empty one, rejected unless it starts with 01, a throw when the ciphertext is not a whole
   * number of blocks, and otherwise the decrypted and unpadded data.
   */
  function OpenDo87(p: Primitives, ksEnc16: Bytes, ssc: Block, do87: Bytes): (r: Outcome<Bytes>)
    requires |ksEnc16| == 16
    ensures do87 == [] ==> r == Pass([])
    ensures do87 != [] && do87[0] != 0x01 ==> r == Reject
    ensures r.Abort? <==> do87 != [] && do87[0] == 0x01 && (|do87| - 1) % 8 != 0
  {
    if |do87| < 1 then Pass([])
    else if do87[0] != 0x01 then Reject
    else if |do87[1..]| % 8 != 0 then Abort
    else Pass(Unpadded(TripleDesCbcDecrypt(p, ksEnc16, ssc, do87[1..])))
  }

  /**
   * A response is accepted with data only if DO99 says 90 00, DO8E is the MAC of the counter, the
   * cached header, the DO87 found and DO99, and the DO87 starts with 01; an empty body is accepted
   * only with status 9000, and then with no data.
   */
  lemma AcceptedOnlyIfAuthentic(p: Primitives, ksEnc16: Bytes, ksMac16: Bytes, ssc: Block,
                                cached: Bytes, resp: Bytes, sw: int)
    requires |ksEnc16| == 16 && |ksMac16| == 16
    ensures var r := UnprotectResponse(p, ksEnc16, ksMac16, ssc, cached, resp, sw);
      (r.Pass? && resp == [] ==> sw == SwOk && r.value == []) &&
      (r.Pass? && resp != [] ==>
        TlvFind(resp, 0x99) == Some([0x90, 0x00]) &&
        TlvFind(resp, 0x8E) == Some(RetailMac(p, ksMac16, ssc + ResponseHeader(cached) + OptTl(0x87, TlvFind(resp, 0x87)) + Do99Ok))) &&
      (r.Pass? && r.value != [] ==>
        TlvFind(resp, 0x87).Some? && |TlvFind(resp, 0x87).value| >= 1 && TlvFind(resp, 0x87).value[0] == 0x01)
  {
    if resp == [] {
      assert TlvFind(resp, 0x99) == None;
    }
  }

  /**
   * The response a card sends for `plain` when it follows the same conventions: DO87 (if there is
   * data), DO99 90 00, and DO8E over the counter, the header and both.
   */
  function CardResponse(p: Primitives, ksEnc16: Bytes, ksMac16: Bytes, ssc: Block, header: Bytes, plain: Bytes): Bytes
    requires |ksEnc16| == 16 && |ksMac16| == 16
  {
    var do87 := BuildDo87(p, ksEnc16, ssc, plain);
    do87 + Do99Ok + Tl(0x8E, RetailMac(p, ksMac16, ssc + header + do87 + Do99Ok))
  }

  /** A response built by a card with the same keys, counter and header is accepted with its data, whatever the outer status. */
  lemma ResponseRoundTrip(p: Primitives, ksEnc16: Bytes, ksMac16: Bytes, ssc: Block, cached: Bytes, plain: Bytes, sw: int)
    requires DesInverts(p) && |ksEnc16| == 16 && |ksMac16| == 16 && |plain| <= 0xFF00
    ensures UnprotectResponse(p, ksEnc16, ksMac16, ssc, cached,
                              CardResponse(p, ksEnc16, ksMac16, ssc, ResponseHeader(cached), plain), sw) == Pass(plain)
  {
    var do87 := BuildDo87(p, ksEnc16, ssc, plain);
    var header := ResponseHeader(cached);
    var mac := RetailMac(p, ksMac16, ssc + header + do87 + Do99Ok);
    var x: Option<Bytes> := if plain == [] then None else Some([0x01] + TripleDesCbcEncrypt(p, ksEnc16, ssc, PadM2(plain)));
    assert do87 == OptTl(0x87, x);
    var resp := CardResponse(p, ksEnc16, ksMac16, ssc, header, plain);
    assert resp == OptTl(0x87, x) + (OptTl(0x99, Some([0x90, 0x00])) + Tl(0x8E, mac));
    FindInObjects(0x87, x, 0x99, Some([0x90, 0x00]), 0x8E, mac);
    if plain != [] {
      BuildDo87Opens(p, ksEnc16, ssc, plain);
      TlvFindOfTl(0x87, x.value, []);
      assert do87 + [] == do87;
    }
  }

  /** Whatever DO87 a response carries, a DO8E that is not the MAC of what was received makes it rejected. */
  lemma ForgedMacRejected(p: Primitives, ksEnc16: Bytes, ksMac16: Bytes, ssc: Block, cached: Bytes,
                          do87: Option<Bytes>, mac: Bytes, sw: int)
    requires |ksEnc16| == 16 && |ksMac16| == 16 && |mac| == 8
    requires do87.Some? ==> |do87.value| <= 0xFFFF
    requires mac != RetailMac(p, ksMac16, ssc + ResponseHeader(cached) + OptTl(0x87, do87) + Do99Ok)
    ensures UnprotectResponse(p, ksEnc16, ksMac16, ssc, cached, OptTl(0x87, do87) + Do99Ok + Tl(0x8E, mac), sw) == Reject
  {
    assert Do99Ok == OptTl(0x99, Some([0x90, 0x00]));
    assert OptTl(0x87, do87) + Do99Ok + Tl(0x8E, mac) == OptTl(0x87, do87) + (Do99Ok + Tl(0x8E, mac));
    FindInObjects(0x87, do87, 0x99, Some([0x90, 0x00]), 0x8E, mac);
  }

  /** Two bytes that read 0x9000 as a big-endian status word are 90 00. */
  lemma StatusBytes(sw: Bytes)
    requires |sw| == 2 && sw[0] as int * 256 + sw[1] as int == SwOk
    ensures sw == [0x90, 0x00]
  {
  }

  /**
   * The checks `ParseSmResponse` makes once the counter is incremented to `ssc`, in the source's
   * order, with `cached` the header of the last protected command.
   */
  method CheckResponse(prims: Primitives, ksEnc16: Bytes, ksMac16: Bytes, ssc: Block, cached: Bytes,
                       resp: Bytes, sw: int) returns (r: Outcome<Bytes>)
    requires |ksEnc16| == 16 && |ksMac16| == 16
    ensures r == UnprotectResponse(prims, ksEnc16, ksMac16, ssc, cached, resp, sw)
  {
    if sw == SwOk && |resp| == 0 {
      return Pass([]);
    }
    var has99, do99 := TryTlvFind(resp, 0x99);
    if !has99 || |do99| != 2 {
      return Reject;
    }
    if do99[0] as int * 256 + do99[1] as int != SwOk {
      return Reject;
    }
    StatusBytes(do99);
    var has8e, do8e := TryTlvFind(resp, 0x8E);
    if !has8e || |do8e| != 8 {
      return Reject;
    }
    var m, do87 := ResponseMacInput(ssc, cached, resp, do99);
    var macCalc := RetailMac(prims, ksMac16, m);
    if macCalc != do8e {
      return Reject;
    }
    r := DecryptDo87(prims, ksEnc16, ssc, do87);
  }

  /**
   * The input of the response MAC once DO99 is known to hold 90 00: the counter, the cached header
   * (or 0C B0 00 00 when none of 4 bytes is cached), the DO87 found re-encoded, and DO99; with the
   * DO87 value, empty when there is none.
   */
  method ResponseMacInput(ssc: Block, cached: Bytes, resp: Bytes, do99: Bytes) returns (m: Bytes, do87: Bytes)
    requires do99 == [0x90, 0x00]
    ensures m == ssc + ResponseHeader(cached) + OptTl(0x87, TlvFind(resp, 0x87)) + Do99Ok
    ensures do87 == if TlvFind(resp, 0x87).Some? then TlvFind(resp, 0x87).value else []
  {
    var headerMacUsed := if |cached| == 4 then cached else [0x0C, 0xB0, 0x00, 0x00];
    var blocks := [ssc, headerMacUsed];
    var has87;
    has87, do87 := TryTlvFind(resp, 0x87);
    if has87 {
      blocks := blocks + [Tl(0x87, do87)];
    }
    blocks := blocks + [Tl(0x99, do99)];
    if has87 {
      assert blocks == [ssc, headerMacUsed, Tl(0x87, do87), Do99Ok];
      ConcatSmall(ssc, headerMacUsed, Tl(0x87, do87), Do99Ok);
    } else {
      assert blocks == [ssc, headerMacUsed, Do99Ok];
      ConcatSmall(ssc, headerMacUsed, Do99Ok, Do99Ok);
    }
    m := Concat(blocks);
  }

  /** The tail of `ParseSmResponse`: the DO87 value checked for its 01 indicator, decrypted under the counter and unpadded. */
  method DecryptDo87(prims: Primitives, ksEnc16: Bytes, ssc: Block, do87: Bytes) returns (r: Outcome<Bytes>)
    requires |ksEnc16| == 16
    ensures r == OpenDo87(prims, ksEnc16, ssc, do87)
  {
    if |do87| >= 1 {
      if do87[0] != 0x01 {
        return Reject;
      }
      var enc := do87[1..];
      if |enc| % 8 != 0 {
        return Abort;
      }
      var dec := TripleDesCbcDecrypt(prims, ksEnc16, ssc, enc);
      var plain := UnpadM2(dec);
      return Pass(plain);
    }
    return Pass([]);
  }

  // ---------------------------------------------------------------- the channel

  /** The secure messaging state of one session: session keys, counter, and the last protected header. */
  class SmChannel {
    const prims: Primitives
    const ksEnc16: Bytes
    const ksMac16: Bytes
    /** The send sequence counter, incremented in place. */
    const ssc8: array<byte>
    /** The header of the last protected command, which the response MAC covers. */
    var lastSmHeaderMac: Bytes

    predicate Valid()
    {
      |ksEnc16| == 16 && |ksMac16| == 16 && ssc8.Length == 8
    }

    /** `InitSM`: session keys from the exchanged randoms and key halves, counter RND.ICC[4..8) || RND.IFD[4..8). */
    constructor InitSM(prims: Primitives, rndIfd: Bytes, rndIcc: Bytes, kIfd16: Bytes, kIcc16: Bytes)
      requires |rndIfd| == 8 && |rndIcc| == 8
      ensures Valid() && fresh(ssc8)
      ensures this.prims == prims
      ensures ksEnc16 == SessionKey(prims, rndIfd, rndIcc, kIfd16, kIcc16, 1)
      ensures ksMac16 == SessionKey(prims, rndIfd, rndIcc, kIfd16, kIcc16, 2)
      ensures ssc8[..] == InitialSsc(rndIfd, rndIcc)
      ensures lastSmHeaderMac == []
    {
      ConcatSmall(rndIfd, rndIcc, kIfd16, kIcc16);
      var seedFull := prims.sha1(Concat([rndIfd, rndIcc, kIfd16, kIcc16]));
      var smSeed16 := seedFull[..16];
      var a := Concat([smSeed16, [0, 0, 0, 1]]);
      var b := Concat([smSeed16, [0, 0, 0, 2]]);
      ConcatSmall(smSeed16, [0, 0, 0, 1], [], []);
      ConcatSmall(smSeed16, [0, 0, 0, 2], [], []);
      var enc := FixDesParity(prims.sha1(a)[..16]);
      var mac := FixDesParity(prims.sha1(b)[..16]);
      var ssc := Concat([rndIcc[4..8], rndIfd[4..8]]);
      ConcatSmall(rndIcc[4..8], rndIfd[4..8], [], []);
      this.prims := prims;
      ksEnc16 := enc;
      ksMac16 := mac;
      ssc8 := new byte[8](i requires 0 <= i < 8 => ssc[i]);
      lastSmHeaderMac := [];
    }

    /** `SscIncrement`: the counter plus one, big-endian, in place. */
    method SscIncrement()
      requires Valid()
      modifies ssc8
      ensures ssc8[..] == Incremented(old(ssc8[..]))
      ensures BeValue(ssc8[..]) == (BeValue(old(ssc8[..])) + 1) % Pow256(8)
    {
      ghost var s0 := ssc8[..];
      assert s0[..8] == s0;
      var i := ssc8.Length - 1;
      while i >= 0
        invariant -1 <= i < ssc8.Length
        invariant ssc8[..i + 1] == s0[..i + 1]
        invariant Incremented(s0) == Incremented(s0[..i + 1]) + ssc8[i + 1..]
      {
        ghost var low := s0[..i + 1];
        assert low[..i] == s0[..i] && low[i] == ssc8[i];
        ssc8[i] := if ssc8[i] == 0xFF then 0 else ssc8[i] + 1;
        if ssc8[i] != 0 {
          assert Incremented(low) == s0[..i] + [ssc8[i]];
          assert ssc8[..] == ssc8[..i] + [ssc8[i]] + ssc8[i + 1..];
          break;
        }
        assert Incremented(low) == Incremented(s0[..i]) + [0];
        i := i - 1;
      }
      assert s0[..0] == [];
      IncrementedValue(s0);
    }

    /**
     * `MakeProtectedApdu`: increments the counter, caches the protected header, and returns the
     * command protected under the new counter.
     */
    method MakeProtectedApdu(cla: byte, ins: byte, p1: byte, p2: byte, data: Bytes, le: Option<int>) returns (cmd: Command)
      requires Valid()
      modifies this`lastSmHeaderMac, ssc8
      ensures ssc8[..] == Incremented(old(ssc8[..]))
      ensures lastSmHeaderMac == [cmd.cla, cmd.ins, cmd.p1, cmd.p2]
      ensures cmd == ProtectCommand(prims, ksEnc16, ksMac16, ssc8[..], cla, ins, p1, p2, data, le)
    {
      SscIncrement();
      var ssc := ssc8[..];
      var do87 := BuildDo87(prims, ksEnc16, ssc, data);
      var do97 := if le.Some? then BuildDo97(le.value) else [];
      var doList := IfPresent(do87) + IfPresent(do97);
      var claProtected := SmClass(cla);
      var mHeaderMac := [claProtected, ins, p1, p2];
      lastSmHeaderMac := mHeaderMac;
      var do8e := BuildDo8E(prims, ksMac16, ssc, mHeaderMac, do87, do97);
      doList := doList + [do8e];
      ConcatIfPresent(IfPresent(do87), do97, [do8e]);
      ConcatSmall(do8e, do8e, do8e, do8e);
      var dataField := Concat(doList);
      cmd := Command(claProtected, ins, p1, p2, dataField, -1);
    }

    /**
     * `MakeProtectedReadBinary`: a protected READ BINARY (INS B0) with no data and a DO97 for `le`,
     * where a length of zero or less asks for 256 bytes.
     */
    method MakeProtectedReadBinary(cla: byte, p1: byte, p2: byte, le: int) returns (cmd: Command)
      requires Valid()
      modifies this`lastSmHeaderMac, ssc8
      ensures ssc8[..] == Incremented(old(ssc8[..]))
      ensures lastSmHeaderMac == [cmd.cla, cmd.ins, cmd.p1, cmd.p2]
      ensures cmd == ProtectCommand(prims, ksEnc16, ksMac16, ssc8[..], cla, 0xB0, p1, p2, [], Some(if le <= 0 then 256 else le))
    {
      SscIncrement();
      var ssc := ssc8[..];
      var claProt := SmClass(cla);
      var headerMac := [claProt, 0xB0, p1, p2];
      lastSmHeaderMac := headerMac;
      var do97 := BuildDo97(if le <= 0 then 256 else le);
      var do8e := BuildDo8E(prims, ksMac16, ssc, headerMac, [], do97);
      var payload := Concat([do97, do8e]);
      ReadBinaryProtected(prims, ksEnc16, ksMac16, ssc, cla, p1, p2, if le <= 0 then 256 else le);
      cmd := Command(claProt, 0xB0, p1, p2, payload, -1);
    }

    /** `ParseSmResponse`: increments the counter, then checks and opens the response under the new counter. */
    method ParseSmResponse(resp: Bytes, sw: int) returns (r: Outcome<Bytes>)
      requires Valid()
      modifies ssc8
      ensures ssc8[..] == Incremented(old(ssc8[..]))
      ensures r == UnprotectResponse(prims, ksEnc16, ksMac16, ssc8[..], lastSmHeaderMac, resp, sw)
    {
      SscIncrement();
      r := CheckResponse(prims, ksEnc16, ksMac16, ssc8[..], lastSmHeaderMac, resp, sw);
    }
  }
}

=== FILE: service.dfy ===
/**
 * `NfcService_iOS` once a tag is connected: the fields the session writes and the methods that
 * exchange APDUs with the tag. Each method is proved to compute the function of `Flow` that
 * describes it, on the commands it sends, the channel state it leaves and what it returns.
 */
module Service {
  import opened Wrappers
  import opened Octets
  import opened Crypto
  import opened Apdu
  import opened SecureMessaging
  import opened Bac
  import opened Mrz
  import opened Flow

  /** BAC keys as `DeriveBacKeysFromMrzInfo` leaves them: K_enc and K_mac of 16 bytes. */
  type DerivedKeys = k: BacKeys | |k.kEnc16| == 16 && |k.kMac16| == 16
    witness BacKeys(Zeros(16), Zeros(16), Zeros(16))

  class NfcService {
    /** SHA-1 and single DES, the library calls the service makes. */
    const prims: Primitives
    /** The connected ISO 7816 tag. */
    const iso: Transport
    /** K_seed, K_enc and K_mac, present when the MRZ could be parsed before the session started. */
    const bacKeys: Option<DerivedKeys>
    var rndIcc: Bytes
    var rndIfd: Bytes
    var kIfd16: Bytes
    var kIcc16: Bytes
    /** The secure messaging channel, created by `InitSM` after BAC. */
    var sm: SmChannel?
    /** Every byte string handed to `OnFileRead`, in order. */
    var fileRead: seq<Bytes>

    /**
     * A service talking to `iso`, with the BAC keys derived by `DeriveBacKeysFromMrzInfo` from
     * `mrzInfo` when `StartSession` could parse the MRZ.
     */
    constructor (prims: Primitives, iso: Transport, mrzInfo: Option<string>)
      ensures this.prims == prims && this.iso == iso && sm == null && fileRead == []
      ensures bacKeys == if mrzInfo.Some? then Some(BacKeysFromMrzInfo(prims, mrzInfo.value)) else None
    {
      this.prims := prims;
      this.iso := iso;
      bacKeys := if mrzInfo.Some? then Some(BacKeysFromMrzInfo(prims, mrzInfo.value)) else None;
      rndIcc, rndIfd, kIfd16, kIcc16 := [], [], [], [];
      sm := null;
      fileRead := [];
    }

    /** The session keys of the channel. */
    function Keys(): SmKeys
      requires sm != null && sm.Valid()
      reads this`sm
    {
      SessionKeys(sm.prims, sm.ksEnc16, sm.ksMac16)
    }

    /** The state protected exchanges change: commands sent, counter and cached header. */
    function Channel(): Link
      requires sm != null && sm.Valid()
      reads this`sm, iso`sent, sm`lastSmHeaderMac, sm.ssc8
    {
      Link(iso.sent, sm.ssc8[..], sm.lastSmHeaderMac)
    }

    /** `ApduSelectAid`: SELECT of the LDS application; true exactly on 90 00. */
    method ApduSelectAid() returns (ok: bool)
      modifies iso`sent
      ensures iso.sent == old(iso.sent) + [SelectAid]
      ensures ok <==> Received(iso.card(iso.sent)).1 == SwOk
    {
      var data, sw := iso.SendApdu(SelectAid);
      ok := sw == SwOk;
    }

    /** `BacGetChallengeAsync`: GET CHALLENGE with Le 8 and then 256, until a reply carries 8 bytes with 90 00. */
    method BacGetChallenge() returns (rnd: Option<Bytes>)
      modifies iso`sent
      ensures (iso.sent, rnd) == Challenge(iso.card, old(iso.sent))
    {
      var les := [8, 256];
      var i := 0;
      while i < 2
        invariant 0 <= i <= 2
        invariant Attempts(iso.card, iso.sent, ChallengeCommands[i..], ChallengeOk)
               == Attempts(iso.card, old(iso.sent), ChallengeCommands, ChallengeOk)
      {
        var data, sw := iso.SendApdu(GetChallenge(les[i]));
        if sw == SwOk && |data| >= 8 {
          return Some(data[..8]);
        }
        i := i + 1;
      }
      return None;
    }

    /** `SendEA_RAW`: EXTERNAL AUTHENTICATE with body E_IFD || M_IFD; ok exactly on 90 00. */
    method SendEaRaw(cla: byte, eifd: Bytes, mac8: Bytes, le: Option<int>) returns (ok: bool, data: Bytes, sw: int)
      requires |eifd| == 32 && |mac8| == 8
      modifies iso`sent
      ensures iso.sent == old(iso.sent) + [EaCommand(EaVariant(RawBody, cla, le), eifd, mac8)]
      ensures (data, sw) == Received(iso.card(iso.sent)) && (ok <==> sw == SwOk)
    {
      data, sw := iso.SendApdu(CreateApdu(cla, 0x82, 0x00, 0x00, eifd + mac8, le));
      ok := sw == SwOk;
    }

    /** `SendEA_TLV`: EXTERNAL AUTHENTICATE with body 7C 2C 80 20 E_IFD 86 08 M_IFD; ok exactly on 90 00. */
    method SendEaTlv(cla: byte, eifd: Bytes, mac8: Bytes, le: Option<int>) returns (ok: bool, data: Bytes, sw: int)
      requires |eifd| == 32 && |mac8| == 8
      modifies iso`sent
      ensures iso.sent == old(iso.sent) + [EaCommand(EaVariant(TlvBody, cla, le), eifd, mac8)]
      ensures (data, sw) == Received(iso.card(iso.sent)) && (ok <==> sw == SwOk)
    {
      var tlv := new byte[46];
      tlv[0], tlv[1], tlv[2], tlv[3] := 0x7C, 0x2C, 0x80, 0x20;
      forall i | 0 <= i < 32 {
        tlv[4 + i] := eifd[i];
      }
      tlv[36], tlv[37] := 0x86, 0x08;
      forall i | 0 <= i < 8 {
        tlv[38 + i] := mac8[i];
      }
      assert tlv[..] == EaTlvBody(eifd, mac8);
      data, sw := iso.SendApdu(CreateApdu(cla, 0x82, 0x00, 0x00, tlv[..], le));
      ok := sw == SwOk;
    }

    /**
     * `BacExternalAuthenticateAsync`: the eight variants until one is answered with 90 00, then
     * the answer check; on success K.ICC is stored and returned.
     */
    method BacExternalAuthenticate(eifd: Bytes, mac8: Bytes) returns (r: Outcome<Bytes>)
      requires bacKeys.Some? && |eifd| == 32 && |mac8| == 8
      modifies iso`sent, this`kIcc16
      ensures (iso.sent, r) == Authenticate(prims, bacKeys.value.kEnc16, bacKeys.value.kMac16, rndIcc, rndIfd,
                                            iso.card, old(iso.sent), eifd, mac8)
      ensures kIcc16 == if r.Pass? then r.value else old(kIcc16)
    {
      ghost var cmds := EaCommands(eifd, mac8);
      var i := 0;
      var ok := false;
      var data: Bytes := [];
      while i < 8 && !ok
        invariant 0 <= i <= 8
        invariant !ok ==> Attempts(iso.card, iso.sent, cmds[i..], EaOk) == Attempts(iso.card, old(iso.sent), cmds, EaOk)
        invariant ok ==> Attempts(iso.card, old(iso.sent), cmds, EaOk) == (iso.sent, Some(Received(iso.card(iso.sent))))
        invariant ok ==> data == Received(iso.card(iso.sent)).0
        invariant kIcc16 == old(kIcc16)
        decreases 8 - i
      {
        var v := EaVariants[i];
        var sw;
        if v.framing == RawBody {
          ok, data, sw := SendEaRaw(v.cla, eifd, mac8, v.le);
        } else {
          ok, data, sw := SendEaTlv(v.cla, eifd, mac8, v.le);
        }
        i := i + 1;
      }
      if !ok {
        assert cmds[i..] == [];
        return Reject;
      }
      r := ParseEaResponse(prims, bacKeys.value.kEnc16, bacKeys.value.kMac16, rndIcc, rndIfd, data);
      if r.Pass? {
        kIcc16 := r.value;
      }
    }

    /**
     * `SmSelectByFidTry`: one protected SELECT of EF.COM, with Le only when DO97 is included;
     * 90 00 when the answer passes the check, otherwise the card's status word.
     */
    method SmSelectByFidTry(p1: byte, p2: byte, le: Option<int>, includeDo97: bool) returns (r: Outcome<int>)
      requires sm != null && sm.Valid()
      modifies iso`sent, sm`lastSmHeaderMac, sm.ssc8
      ensures sm.Valid() && (Channel(), r) == SmSelect(Keys(), iso.card, old(Channel()), p1, p2, if includeDo97 then le else None)
    {
      var apdu := sm.MakeProtectedApdu(0x00, 0xA4, p1, p2, EfComFid, if includeDo97 then le else None);
      var resp, sw := iso.SendApdu(apdu);
      var out := sm.ParseSmResponse(resp, sw);
      r := if out.Abort? then Abort else if out.Pass? then Pass(SwOk) else Pass(sw);
    }

    /** `SendSmReadBinary`: one protected READ BINARY; the plaintext and 90 00, or no bytes and the card's status word. */
    method SendSmReadBinary(p1: byte, p2: byte, le: int) returns (r: Outcome<(Bytes, int)>)
      requires sm != null && sm.Valid()
      modifies iso`sent, sm`lastSmHeaderMac, sm.ssc8
      ensures sm.Valid() && (Channel(), r) == SmReadBinary(Keys(), iso.card, old(Channel()), p1, p2, le)
    {
      var apdu := sm.MakeProtectedReadBinary(0x00, p1, p2, le);
      var resp, sw := iso.SendApdu(apdu);
      var out := sm.ParseSmResponse(resp, sw);
      r := if out.Abort? then Abort else if out.Pass? then Pass((out.value, SwOk)) else Pass(([], sw));
    }

    /**
     * `PlainReadBinaryFallback`: plain READ BINARY from offset 0 in chunks of up to 256 bytes,
     * continuing up to offset 16384; what was read is handed to `OnFileRead`. `link` is the
     * channel state, which plain reads only extend with the commands sent.
     */
    method PlainReadBinaryFallback(ghost link: Link) returns (bytes: Bytes)
      requires link.sent == iso.sent
      modifies iso`sent, this`fileRead
      ensures ReadFrom(PlainReader(iso.card), PlainReadCap, link, 0, []) == (link.(sent := iso.sent), Pass(bytes))
      ensures fileRead == old(fileRead) + [bytes]
    {
      ghost var read := PlainReader(iso.card);
      var offset := 0;
      var all: Bytes := [];
      while true
        invariant offset <= PlainReadCap && fileRead == old(fileRead)
        invariant ReadFrom(read, PlainReadCap, link.(sent := iso.sent), offset, all) == ReadFrom(read, PlainReadCap, link, 0, [])
        decreases PlainReadCap - offset
      {
        ghost var before, read0 := link.(sent := iso.sent), all;
        var resp, sw := iso.SendApdu(CreateApdu(0x00, 0xB0, OffsetP1(offset), OffsetP2(offset), [], Some(0)));
        assert iso.sent == before.sent + [PlainRead(offset)];
        assert (resp, sw) == Received(iso.card(iso.sent));
        assert read(before, offset) == (link.(sent := iso.sent), Pass((resp, sw)));
        if sw != SwOk || resp == [] {
          assert ReadFrom(read, PlainReadCap, before, offset, read0) == (link.(sent := iso.sent), Pass(all));
          break;
        }
        all := all + resp;
        if |resp| < 256 || offset + |resp| > PlainReadCap {
          assert ReadFrom(read, PlainReadCap, before, offset, read0) == (link.(sent := iso.sent), Pass(all));
          break;
        }
        offset := offset + |resp|;
      }
      bytes := all;
      fileRead := fileRead + [bytes];
    }

    /**
     * The protected SELECT attempts of `ReadLdsAsync`: P2 0C with Le 256, then P2 00 with Le 256,
     * then P2 0C without DO97, each only after the previous did not report 90 00.
     */
    method SelectEfCom() returns (sel: Outcome<int>)
      requires sm != null && sm.Valid()
      modifies iso`sent, sm`lastSmHeaderMac, sm.ssc8
      ensures sm.Valid() && (Channel(), sel) == Flow.SelectEfCom(SmSelector(Keys(), iso.card), old(Channel()))
    {
      ghost var select, w0 := SmSelector(Keys(), iso.card), Channel();
      sel := SmSelectByFidTry(0x02, 0x0C, Some(256), true);
      assert select(w0, 0x0C, Some(256)) == (Channel(), sel);
      if sel.Abort? {
        return;
      }
      if sel != Pass(SwOk) {
        ghost var w1 := Channel();
        sel := SmSelectByFidTry(0x02, 0x00, Some(256), true);
        assert select(w1, 0x00, Some(256)) == (Channel(), sel);
        if sel.Abort? {
          return;
        }
        if sel != Pass(SwOk) {
          ghost var w2 := Channel();
          sel := SmSelectByFidTry(0x02, 0x0C, None, false);
          assert select(w2, 0x0C, None) == (Channel(), sel);
        }
      }
    }

    /**
     * `ReadLdsAsync`: the protected SELECT attempts; after one reported 90 00 the protected read
     * loop, and what it read is handed to `OnFileRead`. When none did: a plain SELECT and, on
     * 90 00, `PlainReadBinaryFallback`. An exception ends it with nothing handed on.
     */
    method ReadLds() returns (r: Outcome<Bytes>)
      requires sm != null && sm.Valid()
      modifies iso`sent, sm`lastSmHeaderMac, sm.ssc8, this`fileRead
      ensures sm.Valid() && (Channel(), r) == Flow.ReadLds(SessionExchanges(Keys(), iso.card), iso.card, old(Channel()))
      ensures fileRead == old(fileRead) + (if r.Pass? then [r.value] else [])
    {
      ghost var w0 := Channel();
      var sel := SelectEfCom();
      r := ReadSelected(sel);
    }

    /** `ReadLdsAsync` after the SELECT of EF.COM answered `sel`. */
    method ReadSelected(sel: Outcome<int>) returns (r: Outcome<Bytes>)
      requires sm != null && sm.Valid()
      modifies iso`sent, sm`lastSmHeaderMac, sm.ssc8, this`fileRead
      ensures sm.Valid() && (Channel(), r) == Flow.ReadSelected(SessionExchanges(Keys(), iso.card), iso.card, old(Channel()), sel)
      ensures fileRead == old(fileRead) + (if r.Pass? then [r.value] else [])
    {
      ghost var x, w1 := SessionExchanges(Keys(), iso.card), Channel();
      if sel.Abort? {
        return Abort;
      }
      if sel != Pass(SwOk) {
        r := ReadPlain(w1);
        return;
      }
      SmReaderIsSmReader(Keys(), iso.card);
      r := ReadChunks(x.smRead);
      if r.Pass? {
        fileRead := fileRead + [r.value];
      }
    }

    /** The unprotected path of `ReadLdsAsync`: a plain SELECT of EF.COM and, on 90 00, the plain read loop. */
    method ReadPlain(ghost link: Link) returns (r: Outcome<Bytes>)
      requires link.sent == iso.sent
      modifies iso`sent, this`fileRead
      ensures PlainFallback(PlainReader(iso.card), iso.card, link) == (link.(sent := iso.sent), r)
      ensures fileRead == old(fileRead) + (if r.Pass? then [r.value] else [])
    {
      var data, sw := iso.SendApdu(PlainSelect);
      if sw != SwOk {
        return Reject;
      }
      var bytes := PlainReadBinaryFallback(link.(sent := iso.sent));
      return Pass(bytes);
    }

    /** One protected READ BINARY at `offset`, as the read loop of `ReadLdsAsync` sends it. */
    method ReadChunkAt(ghost read: Reader, offset: nat) returns (res: Outcome<(Bytes, int)>)
      requires sm != null && sm.Valid() && IsSmReader(read, Keys(), iso.card)
      modifies iso`sent, sm`lastSmHeaderMac, sm.ssc8
      ensures sm.Valid() && read(old(Channel()), offset) == (Channel(), res)
    {
      ghost var w := Channel();
      res := SendSmReadBinary(OffsetP1(offset), OffsetP2(offset), 0);
      assert ReadAt(read, w, offset) == (Channel(), res);
    }

    /**
     * The protected READ BINARY loop of `ReadLdsAsync`: from offset 0, P1 P2 the offset, in chunks
     * of up to 256 bytes; it stops on a status other than 90 00, an empty chunk, a short chunk or
     * an offset beyond 8192, and yields what was read. An exception ends it.
     */
    method ReadChunks(ghost read: Reader) returns (r: Outcome<Bytes>)
      requires sm != null && sm.Valid() && IsSmReader(read, Keys(), iso.card)
      modifies iso`sent, sm`lastSmHeaderMac, sm.ssc8
      ensures sm.Valid() && (Channel(), r) == ReadFrom(read, SmReadCap, old(Channel()), 0, [])
    {
      ghost var target := ReadFrom(read, SmReadCap, Channel(), 0, []);
      ghost var link := Channel();
      var offset := 0;
      var all: Bytes := [];
      while true
        invariant sm.Valid() && offset <= SmReadCap && link == Channel()
        invariant ReadFrom(read, SmReadCap, link, offset, all) == target
        decreases SmReadCap - offset
      {
        var res := ReadChunkAt(read, offset);
        ghost var next := Channel();
        if !res.Pass? {
          return Abort;
        }
        var (chunk, sw) := res.value;
        ReadFromTurn(read, SmReadCap, link, offset, all, next, chunk, sw);
        link := next;
        if sw != SwOk || chunk == [] {
          break;
        }
        all := all + chunk;
        if |chunk| < 256 || offset + |chunk| > SmReadCap {
          break;
        }
        offset := offset + |chunk|;
      }
      r := Pass(all);
    }

    /**
     * Steps 1 to 5 of `DidDetectTags`: SELECT AID, GET CHALLENGE, then E_IFD and M_IFD from
     * RND.IFD || RND.ICC || K.IFD and EXTERNAL AUTHENTICATE; the randoms and K.ICC are stored.
     */
    method Handshake(rndIfd: Bytes, kIfd16: Bytes) returns (h: Outcome<(Bytes, Bytes)>)
      requires bacKeys.Some? && |rndIfd| == 8 && |kIfd16| == 16
      modifies iso`sent, this`rndIcc, this`rndIfd, this`kIfd16, this`kIcc16
      ensures (iso.sent, h) == Flow.Handshake(prims, bacKeys.value.kEnc16, bacKeys.value.kMac16, iso.card, old(iso.sent), rndIfd, kIfd16)
      ensures h.Pass? ==> rndIcc == h.value.0 && kIcc16 == h.value.1 && this.rndIfd == rndIfd && this.kIfd16 == kIfd16
    {
      var kEnc16, kMac16 := bacKeys.value.kEnc16, bacKeys.value.kMac16;
      var selectOk := ApduSelectAid();
      if !selectOk {
        return Reject;
      }
      var icc := BacGetChallenge();
      if icc.None? {
        return Reject;
      }
      rndIcc := icc.value;
      this.rndIfd := rndIfd;
      this.kIfd16 := kIfd16;
      ConcatSmall(rndIfd, rndIcc, kIfd16, []);
      var eifd := TripleDesCbcEncrypt(prims, kEnc16, ZeroBlock, Concat([rndIfd, rndIcc, kIfd16]));
      var mifd8 := RetailMac(prims, kMac16, eifd);
      var bac := BacExternalAuthenticate(eifd, mifd8);
      h := if bac.Pass? then Pass((rndIcc, bac.value)) else if bac.Reject? then Reject else Abort;
    }

    /**
     * `DidDetectTags` once the tag is connected, with RND.IFD and K.IFD drawn by the caller:
     * nothing is sent without BAC keys; otherwise the handshake, `InitSM` and `ReadLdsAsync`.
     * The outcome says how the session ended: with the bytes handed to `OnFileRead`, refused, or
     * by an exception.
     */
    method DidDetectTags(rndIfd: Bytes, kIfd16: Bytes) returns (r: Outcome<Bytes>)
      requires |rndIfd| == 8 && |kIfd16| == 16
      modifies this, iso`sent
      ensures bacKeys.None? ==> iso.sent == old(iso.sent) && r == Reject
      ensures bacKeys.Some? ==>
        (iso.sent, r) == Session(prims, bacKeys.value.kEnc16, bacKeys.value.kMac16, iso.card, old(iso.sent), rndIfd, kIfd16)
      ensures fileRead == old(fileRead) + (if r.Pass? then [r.value] else [])
    {
      if bacKeys.None? {
        return Reject;
      }
      var h := Handshake(rndIfd, kIfd16);
      if h.Reject? {
        return Reject;
      } else if h.Abort? {
        return Abort;
      }
      ghost var s3 := iso.sent;
      sm := new SmChannel.InitSM(prims, this.rndIfd, rndIcc, this.kIfd16, kIcc16);
      ghost var k: SmKeys := SessionKeys(prims, SessionKey(prims, rndIfd, rndIcc, kIfd16, kIcc16, 1),
                                         SessionKey(prims, rndIfd, rndIcc, kIfd16, kIcc16, 2));
      assert Keys() == k && Channel() == Link(s3, InitialSsc(rndIfd, rndIcc), []);
      r := ReadLds();
    }
  }
}

=== FILE: tlv.dfy ===
/**
 * The tag-length-value codec of the ICAO data objects: `Tl` writes one object with a one-byte
 * tag and a short (one byte), 0x81 or 0x82 length; `TryTlvFind` walks the top level of a buffer
 * and returns the value of the first object with a given tag.
 */
module Tlv {
  import opened Wrappers
  import opened Octets

  /** Number of bytes `Tl` spends on tag and length for a value of `n` bytes. */
  function HeaderSize(n: nat): nat
  {
    if n <= 0x7F then 2 else if n <= 0xFF then 3 else 4
  }

  /** `Tl(tag, val)`: one data object, its length in one byte up to 0x7F, as 0x81 and one byte up to 0xFF, else as 0x82 and two bytes. */
  function Tl(tag: byte, val: Bytes): (r: Bytes)
    ensures |r| == HeaderSize(|val|) + |val|
    ensures r[0] == tag && r[HeaderSize(|val|)..] == val
  {
    if |val| <= 0x7F then [tag, |val| as byte] + val
    else if |val| <= 0xFF then [tag, 0x81, |val| as byte] + val
    else [tag, 0x82, (|val| / 256 % 256) as byte, (|val| % 256) as byte] + val
  }

  /** One top-level object: its tag, its value and the number of bytes it occupies. */
  datatype Element = Element(tag: byte, value: Bytes, size: nat)

  /**
   * The object at the start of `buf`, read as one turn of the `TryTlvFind` loop reads it: 0x81
   * and 0x82 announce a longer length, every other length byte (0x80 and 0x83 to 0xFF included)
   * is the length itself; `None` when the header or the value would run past the end.
   */
  function NextElement(buf: Bytes): (r: Option<Element>)
    ensures r.Some? ==> |r.value.value| + 2 <= r.value.size <= |buf| && r.value.tag == buf[0]
    ensures r.Some? ==> r.value.value == buf[r.value.size - |r.value.value|..r.value.size]
  {
    if |buf| < 2 then None
    else if buf[1] == 0x81 then
      if |buf| < 3 then None
      else
        var len := buf[2] as nat;
        if 3 + len > |buf| then None else Some(Element(buf[0], buf[3..3 + len], 3 + len))
    else if buf[1] == 0x82 then
      if |buf| < 4 then None
      else
        var len := buf[2] as nat * 256 + buf[3] as nat;
        if 4 + len > |buf| then None else Some(Element(buf[0], buf[4..4 + len], 4 + len))
    else
      var len := buf[1] as nat;
      if 2 + len > |buf| then None else Some(Element(buf[0], buf[2..2 + len], 2 + len))
  }

  /** The value of the first top-level object tagged `tag`; `None` when the walk meets a malformed object first. */
  function TlvFind(buf: Bytes, tag: byte): (r: Option<Bytes>)
    ensures r.Some? ==> |r.value| + 2 <= |buf|
    decreases |buf|
  {
    match NextElement(buf)
    case None => None
    case Some(e) => if e.tag == tag then Some(e.value) else TlvFind(buf[e.size..], tag)
  }

  /**
   * The header of the object at the start of `rest` as the loop reads it: `hdr` bytes of tag and
   * length, announcing `len` bytes of value.
   */
  lemma ElementHeader(rest: Bytes, hdr: int, len: int)
    requires 2 <= hdr <= |rest|
    requires hdr == 2 ==> rest[1] != 0x81 && rest[1] != 0x82 && len == rest[1] as int
    requires hdr == 3 ==> rest[1] == 0x81 && len == rest[2] as int
    requires hdr == 4 ==> rest[1] == 0x82 && len == rest[2] as int * 256 + rest[3] as int
    requires hdr <= 4
    ensures len >= 0
    ensures hdr + len > |rest| ==> NextElement(rest) == None
    ensures hdr + len <= |rest| ==> NextElement(rest) == Some(Element(rest[0], rest[hdr..hdr + len], hdr + len))
  {
  }

  /** Slicing a suffix is slicing the whole at shifted positions. */
  lemma SliceOfSuffix(buf: Bytes, start: nat, lo: nat, hi: nat)
    requires start + hi <= |buf| && lo <= hi
    ensures buf[start..][lo..hi] == buf[start + lo..start + hi]
    ensures buf[start..][hi..] == buf[start + hi..]
  {
  }

  /**
   * One turn of the `TryTlvFind` loop from cursor `i`: the tag byte, the length in one of its three
   * forms, and the value, each read only after a bounds check; `next` is the cursor after the object.
   */
  method ReadElement(buf: Bytes, i: nat) returns (ok: bool, t: byte, v: Bytes, next: nat)
    requires i < |buf|
    ensures ok <==> NextElement(buf[i..]).Some?
    ensures ok ==> i < next <= |buf| && NextElement(buf[i..]) == Some(Element(t, v, next - i))
  {
    ghost var rest := buf[i..];
    var j := i;
    t := buf[j];
    j := j + 1;
    if j >= |buf| {
      return false, t, [], j;
    }
    var len := buf[j] as int;
    j := j + 1;
    if len == 0x81 {
      if j >= |buf| {
        return false, t, [], j;
      }
      len := buf[j] as int;
      j := j + 1;
    } else if len == 0x82 {
      if j + 1 >= |buf| {
        return false, t, [], j;
      }
      len := buf[j] as int * 256 + buf[j + 1] as int;
      j := j + 2;
    }
    ElementHeader(rest, j - i, len);
    if len < 0 || j + len > |buf| {
      return false, t, [], j;
    }
    v := buf[j..j + len];
    SliceOfSuffix(buf, i, j - i, j - i + len);
    return true, t, v, j + len;
  }

  /** The walk stops with nothing at a malformed object. */
  lemma FoundNone(rest: Bytes, tag: byte)
    requires NextElement(rest).None?
    ensures TlvFind(rest, tag) == None
  {
  }

  /** From cursor `i`, the walk either stops at the object there, which ends at `next`, or goes on after it. */
  lemma FoundAfter(buf: Bytes, i: nat, next: nat, tag: byte, t: byte, v: Bytes)
    requires i < next <= |buf| && NextElement(buf[i..]) == Some(Element(t, v, next - i))
    ensures TlvFind(buf[i..], tag) == if t == tag then Some(v) else TlvFind(buf[next..], tag)
  {
    SliceOfSuffix(buf, i, next - i, next - i);
  }

  /** `TryTlvFind`: the cursor loop over `buf`, stopping at the first malformed object. */
  method TryTlvFind(buf: Bytes, tag: byte) returns (found: bool, value: Bytes)
    ensures found == TlvFind(buf, tag).Some?
    ensures value == if found then TlvFind(buf, tag).value else []
  {
    value := [];
    var i := 0;
    while i < |buf|
      invariant 0 <= i <= |buf|
      invariant TlvFind(buf[i..], tag) == TlvFind(buf, tag)
      decreases |buf| - i
    {
      var ok, t, v, next := ReadElement(buf, i);
      if !ok {
        FoundNone(buf[i..], tag);
        break;
      }
      FoundAfter(buf, i, next, tag, t, v);
      i := next;
      if t == tag {
        value := v;
        return true, value;
      }
    }
    assert i == |buf| ==> buf[i..] == [];
    return false, [];
  }

  // ---------------------------------------------------------------- properties

  /** Reading back an object `Tl` wrote gives its tag and value, for values up to 65535 bytes. */
  lemma NextElementOfTl(tag: byte, v: Bytes, rest: Bytes)
    requires |v| <= 0xFFFF
    ensures NextElement(Tl(tag, v) + rest) == Some(Element(tag, v, |Tl(tag, v)|))
  {
    var buf := Tl(tag, v) + rest;
    var h := HeaderSize(|v|);
    assert buf[..h + |v|] == Tl(tag, v);
    assert buf[h..h + |v|] == v;
    if 0xFF < |v| {
      assert buf[2] as nat * 256 + buf[3] as nat == |v|;
    }
  }

  /** `TryTlvFind(Tl(t, v) ++ rest, t)` yields `v`: encode then find round-trips. */
  lemma TlvFindOfTl(tag: byte, v: Bytes, rest: Bytes)
    requires |v| <= 0xFFFF
    ensures TlvFind(Tl(tag, v) + rest, tag) == Some(v)
  {
    NextElementOfTl(tag, v, rest);
  }

  /** An object with another tag is stepped over: the search continues after it. */
  lemma TlvFindSkips(other: byte, v: Bytes, rest: Bytes, tag: byte)
    requires |v| <= 0xFFFF && other != tag
    ensures TlvFind(Tl(other, v) + rest, tag) == TlvFind(rest, tag)
  {
    NextElementOfTl(other, v, rest);
    assert (Tl(other, v) + rest)[|Tl(other, v)|..] == rest;
  }

  /** The first match wins: a later object with the same tag is never reached. */
  lemma TlvFindFirstMatch(tag: byte, v: Bytes, w: Bytes, rest: Bytes)
    requires |v| <= 0xFFFF
    ensures TlvFind(Tl(tag, v) + Tl(tag, w) + rest, tag) == Some(v)
  {
    assert Tl(tag, v) + Tl(tag, w) + rest == Tl(tag, v) + (Tl(tag, w) + rest);
    TlvFindOfTl(tag, v, Tl(tag, w) + rest);
  }

  /** Cut anywhere before its end, an object is malformed: the search reports nothing, whatever tag it looks for. */
  lemma TlvFindTruncated(tag: byte, v: Bytes, k: nat, t: byte)
    requires |v| <= 0xFFFF && k < |Tl(tag, v)|
    ensures TlvFind(Tl(tag, v)[..k], t) == None
  {
    var full := Tl(tag, v);
    var cut := full[..k];
    var h := HeaderSize(|v|);
    if k >= h {
      if 0xFF < |v| {
        assert cut[2] as nat * 256 + cut[3] as nat == |v|;
      }
    }
    assert NextElement(cut) == None;
  }

  /** `v` is a run of consecutive bytes of `buf`. */
  ghost predicate Occurs(v: Bytes, buf: Bytes)
  {
    exists i :: 0 <= i <= |buf| && v <= buf[i..]
  }

  /** A value found is a run of bytes of the buffer: nothing is read from outside it. */
  lemma {:induction false} TlvFindIsSlice(buf: Bytes, tag: byte)
    requires TlvFind(buf, tag).Some?
    ensures Occurs(TlvFind(buf, tag).value, buf)
    decreases |buf|
  {
    var e := NextElement(buf).value;
    if e.tag == tag {
      var i := e.size - |e.value|;
      assert e.value <= buf[i..];
    } else {
      var tail := buf[e.size..];
      TlvFindIsSlice(tail, tag);
      var v := TlvFind(tail, tag).value;
      var j :| 0 <= j <= |tail| && v <= tail[j..];
      assert tail[j..] == buf[e.size + j..];
    }
  }
}

=== FILE: wrappers.dfy ===
/** The result shapes used wherever the source returns `null`, or a `bool` with an `out` value. */
module Wrappers {
  datatype Option<+T> = None | Some(value: T)

  /**
   * The three ways a checking step of the source ends: it returns true with a value, it returns
   * false, or a library call inside it throws (the exception ends the whole session).
   */
  datatype Outcome<+T> = Pass(value: T) | Reject | Abort
}
